=== FILE: README.md ===
# Mentiroso — a Dafny model of the round state machine

Mentiroso is a pass-the-phone party game. A few players are secretly *liars* (`MENTIROSO`). Everyone else is *normal* (`NORMAL`) and sees a secret word of the chosen category. The game then runs vote rounds until the liars are all voted out or until they are at least as many as the normals.

This project models:
- the round state machine in `src/App.tsx`;
- the pure decisions of the screens around it: the lobby, the reveal card, the outcome screen and the player tile.

All of it is modelled as immutable datatypes and pure functions, and the properties the code promises are proved about those functions.

Modules, one per source component:

- `Util` holds `Min`, `Max`, `Distinct`, and `Filter`/`Without`, which model JavaScript's `filter`.
- `Types` holds the datatypes of `src/types.tsx`: `Phase`, `Role`, `Player`, `RoundState`, the secret, and the lobby entrant.
  - An optional string that the code reads by truthiness is modelled by `Present`: `Some` and not the empty string.
  - The optional booleans `tied` and `liarFound` are plain booleans, because every read of them treats "absent" as false.
- `Text` holds the JavaScript string built-ins the components use, restricted to ASCII: `toLowerCase`, `toUpperCase`, `trim`, `split(' ')`, `split(/\s+/)` and `join`.
- `Tally` is the vote count inside `submitVote`: ballots, the insertion-ordered count map, the scan for the top count, and the tie rule.
- `Engine` holds the handlers of `src/App.tsx`: `startGame` after the fetch, `nextReveal`, `submitVote`, `nextRoundSameWord`, `beginVoteAfterReady`, `goToGameOver`, and the `remainingLiars` computation.
- `Game` covers:
  - the session, which is either the lobby (no round) or a round;
  - `Dispatch` and `Run` over the handlers;
  - an invariant every reachable round keeps;
  - lemmas tying the screens' decisions to the state machine.
- `LobbyScreen`, `RevealScreen`, `OutcomeScreen` and `PlayerTileView` hold the decisions of `src/components/Lobby.tsx`, `Reveal.tsx`, `Outcome.tsx` and `PlayerTile.tsx`.

Inputs that the code does not compute itself are parameters:
- the shuffle in `startGame` is a permutation `perm` of the input positions;
- the fetched secret is `Option<Secret>`, where `None` is a failed fetch and leaves the session unchanged;
- the id `makeIdFromName` makes up is `freshId`;
- an image's load failure is a boolean.

## Model

| member | source | states |
|---|---|---|
| `Engine.StartLiarsCount` | src/App.tsx:38-39 | The liar count is at least 1. A request of 1 or less gives 1, and so does any request with two players or fewer. With at least 3 players, the count leaves more normals than liars (2c+1 ≤ n). An in-range request is kept, and a request that is too large becomes floor((n-1)/2). |
| `Engine.ShuffledLiars` | src/App.tsx:41-42 | There are `count` liar ids, and liar id `i` is the id of input player `perm[i]`, the player the shuffle puts at position `i`. Every one is an input id, and they are distinct when the input ids are. |
| `Engine.FirstRoster` | src/App.tsx:44-49 | Round one's players have the input ids, names and order. None has a vote. A player's role is liar exactly when its id is a liar id. |
| `Engine.Start` | src/App.tsx:27-63 | A failed fetch gives no round. Otherwise the round is in reveal, round 1, index 0, not yet revealed, with no tie, no elimination and no liar found. It keeps the category, the secret text and the secret's meta (or `{}`). Roles agree with the liar ids, which are a subset of the player ids; liar id `i` is the id of the player the shuffle puts at position `i`. With at least 3 players, 1 ≤ liars < normals. |
| `Engine.NextReveal` | src/App.tsx:76-92 | No-op outside reveal. Otherwise the index moves on while it still addresses a player. After the last player, the game goes to game over (no liar found) when liars ≥ normals. If not, it goes to vote with index 0 and the roles marked as revealed. Players, liars, secret and round are unchanged. |
| `Engine.RevealsReachVote` | src/App.tsx:76-92 | From a reveal at index i of n players, the first n−i−1 calls of `nextReveal` only move to the next player, and call n−i ends the reveal. It opens the vote at index 0 unless the liars already win by headcount, in which case it goes to game over. Started at index 0, that is exactly n calls. |
| `Engine.RecordVote` | src/App.tsx:99-101 | Only the voter's `voteForId` changes, to the target. Ids, names, roles and order are kept. |
| `Engine.SubmitVote` | src/App.tsx:95-132 | No-op outside vote or on a self-vote. While someone has not voted, only the ballot and the index (+1) change. Once all have voted, the phase is outcome with index 0. The verdict is `IsVerdictOf` the ballots: tied iff no target has strictly more ballots than every other, and otherwise that target is eliminated. A liar is found iff the eliminated id is a liar id. |
| `Engine.CloseVote` | src/App.tsx:108-131 | Closing the vote changes only the players, the phase, the index and the three outcome fields. The outcome fields are the verdict of the ballots. |
| `Tally.Ballots` | src/App.tsx:109-110 | Only truthy votes are counted, so no ballot is the empty string. |
| `Tally.BallotsContents` | src/App.tsx:109-110 | A target is a ballot iff some player holds a truthy vote for it. There is one ballot per player iff every player voted, and then ballot `i` is player `i`'s vote. |
| `Tally.BallotsPermutation` | src/App.tsx:110 | Players in any order cast the same multiset of ballots. |
| `Tally.CountBallots` | src/App.tsx:109-110 | Each target appears once as a key, and every key is a target. A key's count is the number of ballots naming it. |
| `Tally.ScanTop` | src/App.tsx:112-117 | The scan's top count is reached by some key and bounds every key. The top ids are exactly the keys with that count, each listed once. No keys gives `-1` and no ids. |
| `Tally.TallyVotes` | src/App.tsx:119-120 | The verdict satisfies `IsVerdictOf`: no elimination iff tied, and the eliminated id is the unique strict maximum of the ballot counts. |
| `Tally.TopVotesGuardRedundant` | src/App.tsx:119 | A single top target has at least one ballot, so the `topVotes <= 0` test never decides the tie. |
| `Tally.TallyOrderIndependent` | src/App.tsx:109-120 | Ballots that are a permutation of each other get the same verdict. |
| `Tally.TallyPlayerOrderIndependent` | src/App.tsx:108-121 | The verdict does not depend on the order of the players. |
| `Engine.NextLiarIds` | src/App.tsx:140-143 | The liar ids lose the eliminated id exactly when the vote was not tied and that id was a liar's. Distinct ids stay distinct. |
| `Engine.Survivors` | src/App.tsx:152-155 | The eliminated player (non-tie only) is removed and the rest keep their order. Their ids are the old ids without the eliminated one. |
| `Engine.IdsRemoveId` | src/App.tsx:154 | Filtering players by id is filtering their ids. |
| `Engine.Rebuild` | src/App.tsx:158-163 | The same ids and names, votes cleared, and the role is liar iff the id is a remaining liar. |
| `Engine.NextRoundSameWord` | src/App.tsx:135-189 | The liar set never grows. The game ends with the liars found iff every liar was the one just caught. It ends with the liars winning on headcount. Otherwise it goes to ready, with: liars minus the caught one; the survivors in order with rebuilt roles and no votes; liars < normals; tie, elimination and found flag reset; and category, secret, meta and round number kept. A tie changes neither liars nor roster. |
| `Engine.BeginVoteAfterReady` | src/App.tsx:191-207 | No-op outside ready. Liars ≥ normals ends the game with no liar found. Otherwise the vote starts with round number +1 and index 0, and nothing else changes. |
| `Engine.LiarsWin` | src/App.tsx:81-84 | The liars win on headcount iff they make up at least half of the players. With no liars that happens only for an empty roster. |
| `Engine.EveryoneVoted` | src/App.tsx:102 | Everyone voted iff the count sees one ballot per player, and then each ballot is that player's vote. |
| `Engine.GoToGameOver` | src/App.tsx:209-212 | Only the phase changes, to game over. The found flag is kept. |
| `Engine.RemainingLiars` | src/App.tsx:263-267 | With a truthy eliminated id, the liar ids other than it, which is one fewer when it is a liar and the ids are distinct. Otherwise all liar ids. |
| `Game.Step` | src/App.tsx:76-216 | Every handler but `backToLobby` yields a round of the same game: same category, secret and meta, no new liar, round number not decreasing, revealed roles stay revealed. `backToLobby` drops the round. |
| `Game.Dispatch` | src/App.tsx:136 | In the lobby (no round) every handler does nothing. |
| `Game.Run` | src/App.tsx:218-283 | A run of handler calls from a round stays in a round of the same game unless `backToLobby` is among them, and ends in the lobby if it is. From the lobby it stays in the lobby. |
| `Game.LobbyCategories` | src/App.tsx:232 | The lobby is always offered a non-empty list of categories: the fetched ones when there are any. |
| `Game.StartEstablishesInv` | src/App.tsx:38-61 | A start with distinct player ids yields a round satisfying `Inv`. `Inv` requires: distinct ids, liars among the players, roles agreeing with the liar ids, a reveal index that addresses a player, and liars < normals in vote, outcome and ready. |
| `Game.NextRevealPreservesInv` | src/App.tsx:76-92 | `nextReveal` keeps `Inv`. |
| `Game.SubmitVotePreservesInv` | src/App.tsx:95-132 | `submitVote` keeps `Inv`. An outcome has an eliminated id iff it is not tied, that id is non-empty, and a liar is found iff the id is a liar's. |
| `Game.NextRoundPreservesInv` | src/App.tsx:135-189 | `nextRoundSameWord` keeps `Inv`: every remaining liar is still a player. |
| `Game.BeginVotePreservesInv` | src/App.tsx:191-207 | `beginVoteAfterReady` keeps `Inv`. |
| `Game.FinishGamePreservesInv` | src/App.tsx:209-212 | `goToGameOver` keeps `Inv`. |
| `Game.StepPreservesInv` | src/App.tsx:76-216 | Every handler keeps `Inv`. |
| `Game.RunPreservesInv` | src/App.tsx:218-283 | Any sequence of handler calls keeps `Inv`. |
| `Game.RevealShowsRole` | src/components/Reveal.tsx:31-32 | In a reachable reveal, the card's index addresses a player, and the card says "liar" iff that player's role is liar. |
| `Game.LiarNeverSeesPhoto` | src/components/Reveal.tsx:98 | A liar's reveal card never shows the secret's photo. |
| `Game.FinishIffAllCaught` | src/App.tsx:263-267 | On a reachable outcome, the finish button appears iff continuing would end the game with the liars found. |
| `Game.LobbyCountSurvivesStart` | src/components/Lobby.tsx:217 | The liar count the lobby passes to `startGame` is the one `startGame` uses. |
| `Game.LobbyStartIsPlayable` | src/components/Lobby.tsx:93 | A game the lobby lets start (at least three players) begins with the lobby's liar count, at least one liar and more normals than liars. |
| `LobbyScreen.PresetsRoster` | src/data/presets.tsx:9-22 | The roster has twelve players with distinct blank-free ids and non-empty names, each with the photo `/players/<id>.jpg`. |
| `LobbyScreen.InitialLobby` | src/components/Lobby.tsx:28-33 | The lobby opens with nobody chosen, one liar, an empty input, and the first category, or `peliculas` if that is missing or empty. |
| `LobbyScreen.MaxLiars` | src/components/Lobby.tsx:36-39 | The maximum is at least 1. With n ≥ 3 players it is the largest m with 2m+1 ≤ n. |
| `LobbyScreen.LiarsClamped` | src/components/Lobby.tsx:42 | The shown count lies in [1, MaxLiars]. It equals the request when that is in range, and the nearer bound otherwise. |
| `LobbyScreen.FitLiars` | src/components/Lobby.tsx:49-50 | After a roster change the request is the smaller of itself and the new maximum. |
| `LobbyScreen.ToggleSelect` | src/components/Lobby.tsx:44-53 | The id's membership flips. A chosen player is removed with every entry of its id. The rest keep their order and each keeps its number of entries. An unchosen one is appended at the end. The request is refitted. |
| `LobbyScreen.RemoveSelected` | src/components/Lobby.tsx:84-91 | Every entry with the id goes. The others stay, in their order and with their number of entries. Removing an absent id changes nothing. The request is refitted. |
| `LobbyScreen.RosterChangesKeepIdsDistinct` | src/components/Lobby.tsx:44-91 | Toggling and removing keep the chosen ids distinct. Adding a typed name does too when its made-up id is new. |
| `LobbyScreen.CanStart` | src/components/Lobby.tsx:93 | Starting is allowed iff the roster leaves room for one liar and more normals. Then the lobby's liar count is at least 1 and below the number of normals. |
| `LobbyScreen.AddManual` | src/components/Lobby.tsx:55-82 | A blank input changes nothing. Otherwise the input is cleared. Exactly one player, with the trimmed name, is appended iff no chosen player, and no chosen preset, has that name ignoring case. |
| `LobbyScreen.ToggleTwiceRestores` | src/components/Lobby.tsx:44-47 | Tapping an unchosen player twice restores the roster. |
| `LobbyScreen.ToggleChosenIsRemove` | src/components/Lobby.tsx:44-53 | Tapping a chosen player does what its remove button does. |
| `LobbyScreen.RemoveSelectedIdempotent` | src/components/Lobby.tsx:86 | Removing twice removes nothing more. |
| `LobbyScreen.AddManualOnce` | src/components/Lobby.tsx:59-72 | Typing a name again after it was added adds nobody. |
| `LobbyScreen.RosterChangesKeepLiarsInRange` | src/components/Lobby.tsx:77-78 | Toggling, removing and adding all keep an in-range request in range. |
| `LobbyScreen.FirstChars` | src/components/Lobby.tsx:106-108 | At most one character per token, and only empty tokens give none. When no token is empty, character `k` is the first character of token `k`. |
| `LobbyScreen.FirstCharsAppend` | src/components/Lobby.tsx:107-108 | The first characters of two token lists in a row are those of each list, in a row. |
| `LobbyScreen.TileInitials` | src/components/Lobby.tsx:104-110 | One or two characters, none lower-case. The first is the name's first character upper-cased when that is not a space. A name of spaces only gives `?`. |
| `LobbyScreen.OneWordTileInitials` | src/components/Lobby.tsx:104-110 | A one-word name gives its upper-cased first letter. |
| `LobbyScreen.TwoWordTileInitials` | src/components/Lobby.tsx:104-110 | A name of two words separated by a space gives both upper-cased first letters, whatever follows. |
| `LobbyScreen.PresetPictureAsWritten` | src/components/Lobby.tsx:121-134 | As rendered: the photo is visible iff there is an image path and it loaded. The initials are visible only when there is no image path. |
| `LobbyScreen.BrokenPhotoShowsNothing` | src/components/Lobby.tsx:126-134 | A roster photo that fails to load leaves its tile blank. |
| `LobbyScreen.PresetPicture` | src/components/Lobby.tsx:126-133 | As intended: exactly one of the photo and the initials is visible, and the initials show when the photo is missing or failed. |
| `LobbyScreen.PresetPictureAgreesWhenLoaded` | src/components/Lobby.tsx:121-134 | When the photo loads, the intended and the rendered picture agree. |
| `OutcomeScreen.MessageFor` | src/components/Outcome.tsx:25-29 | A tie gives the tie message whatever the found flag says. With a liar found, the last-liar message appears iff no liars remain. With no liar found, the not-removed message appears. |
| `OutcomeScreen.ButtonFor` | src/components/Outcome.tsx:46-50 | Exactly one button: finish iff `showFinish` (not tied, liar found, none remaining), otherwise next round. |
| `OutcomeScreen.ShowFinish` | src/components/Outcome.tsx:25-31 | The finish button appears iff the last-liar message does, so only when no liar remains. |
| `OutcomeScreen.FindById` | src/components/Outcome.tsx:23 | `find` returns the first player with the id, or none when no player has it. |
| `OutcomeScreen.EliminatedLabel` | src/components/Outcome.tsx:36 | A tie shows a dash. Otherwise the line shows the name of a player with the eliminated id, or a dash exactly when no player has that id. |
| `RevealScreen.FormatCategorySingular` | src/components/Reveal.tsx:15-20 | `peliculas` in any case gives `película` and `famosos` gives `famoso`. Any other category is lower-cased and loses exactly one trailing `s` if it has one, and is otherwise unchanged. |
| `RevealScreen.SingularIgnoresCase` | src/components/Reveal.tsx:16 | Categories that differ only in letter case get the same label. |
| `RevealScreen.IsLiar` | src/components/Reveal.tsx:31-32 | The card holder is a liar iff one of the liar ids is their id. With no liar ids nobody is. |
| `RevealScreen.ShowsSecretImage` | src/components/Reveal.tsx:82-98 | The photo appears exactly on a normal's revealed card with a truthy URL that has not failed, when the category is `famosos` in some letter case (whose singular label is `famoso`). |
| `PlayerTileView.FirstUpper` | src/components/PlayerTile.tsx:15 | An empty token contributes nothing. Otherwise its upper-cased first character. |
| `PlayerTileView.Initials` | src/components/PlayerTile.tsx:13-17 | At most two characters, none lower-case. The first is the name's upper-cased first character when that is not white space. A leading blank uses up a slot, leaving at most one character. |
| `PlayerTileView.LeadingBlankInitials` | src/components/PlayerTile.tsx:13-17 | For " word rest", the leading blank yields an empty first token, so the initials are only the word's upper-cased first letter. |
| `PlayerTileView.InitialsOfTwoTokens` | src/components/PlayerTile.tsx:13-17 | Whenever the split yields two or more tokens, the initials are the upper-cased first characters of the first two tokens, an empty token adding nothing. |
| `PlayerTileView.OneWordInitials` | src/components/PlayerTile.tsx:13-17 | A one-word name gives its upper-cased first letter. |
| `PlayerTileView.TwoWordInitials` | src/components/PlayerTile.tsx:13-17 | For "First Second…", the initials are the two words' upper-cased first letters, and later words are ignored. |
| `PlayerTileView.TwoWordTokens` | src/components/PlayerTile.tsx:14 | Splitting "w1 w2…" on white space yields `w1` and `w2` first. |
| `PlayerTileView.TileFace` | src/components/PlayerTile.tsx:27-36 | The photo shows iff there is a (truthy) image path and no load error. Otherwise the initials show. |
| `Game.NormalSeesPhoto` | src/components/Reveal.tsx:82-98 | In a reachable reveal, a normal player's revealed card under `famosos` shows the secret's photo whenever it has one that loaded. |
| `Game.TileFaceIsIntendedPicture` | src/components/PlayerTile.tsx:27-36 | A player tile shows the photo exactly when the lobby's roster tile is meant to, and the initials otherwise. |
| `Text.Trim` | src/components/Lobby.tsx:56 | `trim` returns a slice of the input with no white space at either end, and everything cut off on either side is white space. It is empty iff the input is all white space. |
| `Text.SplitOnJoin` | src/components/Lobby.tsx:106 | Joining the tokens of `split(' ')` with a space gives the input back. |
| `Text.SplitOnFrom` | src/components/Lobby.tsx:106 | `split(' ')` yields at least one token, and no token contains the separator. |
| `Text.SplitWhitespaceFrom` | src/components/PlayerTile.tsx:14 | `split(/\s+/)` yields at least one token, and no token contains white space. |
| `Text.Collapse` | src/components/PlayerTile.tsx:14 | Reference for the separator runs, defined as turning each maximal white-space run into one space. The contract states that the non-white-space characters are kept in order, every remaining space is `' '`, no two spaces are adjacent, the first character stays white space or not as it was, and the result is no longer than the input. |
| `Text.SplitWhitespaceCollapse` | src/components/PlayerTile.tsx:14 | The tokens of `split(/\s+/)` joined with one space give the name with each white-space run collapsed to one space, so tokens break exactly at the maximal runs. |
| `Text.Lower` | src/components/Lobby.tsx:60-65 | `toLowerCase` keeps the length and turns each ASCII capital into its small letter (code plus 32), leaving every other character as it is. |
| `Text.Upper` | src/components/Lobby.tsx:110 | `toUpperCase` keeps the length and turns each ASCII small letter into its capital (code minus 32), leaving every other character as it is. |
| `Text.CaseRoundTrip` | src/components/Reveal.tsx:16 | Lowering is idempotent, and lowering an upper-cased text gives the same as lowering the original, so comparisons after `toLowerCase` ignore letter case. |
| `Text.SplitWhitespaceJoin` | src/components/PlayerTile.tsx:14 | The tokens glued back together are exactly the non-white-space characters of the name, in order. |
| `Text.SplitWhitespaceInner` | src/components/PlayerTile.tsx:14 | Only the first and the last token can be empty. |
| `Util.Filter` | src/components/Lobby.tsx:86 | `filter` keeps exactly the accepted elements, in their order (a subsequence), each as often as it occurs in the input. |
| `Types.RemoveEntrant` | src/components/Lobby.tsx:86 | Removing an id keeps every other entrant, in order and with its number of entries, and drops every entry with the id. |

## Left out

- Network I/O is not modelled: `fetchCategories`, `fetchSecret`, the loading flag and error messages. A fetched secret is an input, and a failed fetch is `None`.
- Session storage (`src/lib/session.tsx`) is plain I/O and is not modelled.
- `makeIdFromName` is not modelled: it depends on `Date.now`, `Math.random` and Unicode normalisation. Its result is the parameter `freshId`, which is not assumed fresh.
- The `Math.random` sort is not modelled: its outcome is the permutation `perm`.
- React state and effects are not modelled. This covers the order in which `setState` calls land, and the stale `liarsCount` read inside the `setSelected` updaters. The model takes the count the handler sees to be the current one.
- Rendering is not modelled: JSX, CSS, `console.log`, the message strings themselves (they are the `Message` values), and the outcome GIF choice.
- The secret's extra `meta` fields are not modelled. Only `image` is read anywhere.
- `src/components/Vote.tsx`, `Ready.tsx`, `GameOver.tsx`, `PlayerGrid.tsx`, `Results.tsx` (unused), `ui/Select.tsx` and `main.tsx` are display or bootstrapping only and are not part of this model. So the model does not track which player the vote screen lets vote next: `submitVote` accepts any voter, as the code does.
- Letter case is ASCII only. `toLowerCase` and `toUpperCase` outside A–Z are the identity here, and `\s` and `trim` cover only ASCII white space.
- `Tally.CountBallots` does not state that the keys are in first-seen order. No result depends on that order: `Tally.TallyOrderIndependent` proves the verdict is the same for any order of the ballots.
- The lobby's category and liar-count selects are plain setters and are not modelled. The model keeps the request as an unconstrained integer.
- `Engine.NextRoundSameWord` has no phase guard, as in the code. `Game.Step` can apply it in any phase, and `Inv` still holds.
- `Game.Inv` admits a reveal with an empty roster, because `startGame` does not check the roster size and `Engine.Start` accepts one. The reveal screen would then read a missing player. The lobby never starts with fewer than three players (`Game.LobbyStartIsPlayable`), so the app does not reach that state.

## Findings

| source | as written | input that shows it | evidently intended | confidence | as-written member | corrected member |
|---|---|---|---|---|---|---|
| src/components/Lobby.tsx:126-134 | A preset tile's initials render only when the preset has no image path. The `onError` handler hides a photo that failed to load. | Any preset (all have image paths) whose `/players/<id>.jpg` fails to load: the tile shows neither photo nor initials. | The handler's own comment says the photo is hidden so that the initials show: exactly one of the two should be visible. | medium, not executed | `LobbyScreen.PresetPictureAsWritten` (`LobbyScreen.BrokenPhotoShowsNothing`) | `LobbyScreen.PresetPicture` |

=== FILE: engine.dfy ===
/** The round state machine of src/App.tsx: every handler is a pure step from the old round state
    to the new one. The lobby (no round state) is outside this module; see `Game.Dispatch`. */
module Engine {
  import opened Util
  import opened Types
  import opened Tally

  // ----- Start -----

  /** The number of liars a game starts with: the request, capped at half of the other players
      (rounded down) and raised to at least one. Dafny's `/` by 2 rounds down like the source's
      floor, including the `n = 0` case where both give -1. */
  function StartLiarsCount(n: nat, requested: int): (c: int)
    ensures c >= 1
    ensures requested <= 1 ==> c == 1
    ensures n <= 2 ==> c == 1
    ensures n >= 3 ==> 2 * c + 1 <= n
    ensures n >= 3 && 1 <= requested && 2 * requested + 1 <= n ==> c == requested
    ensures n >= 3 && 2 * requested + 1 > n ==> c == (n - 1) / 2
  {
    var maxLiars := (n - 1) / 2;
    Max(1, Min(requested, maxLiars))
  }

  /** `perm` is the shuffle: position `i` of the shuffled roster holds input player `perm[i]`. */
  ghost predicate IsPermutation(perm: seq<nat>, n: nat) {
    && |perm| == n
    && (forall i :: 0 <= i < n ==> perm[i] < n)
    && Distinct(perm)
  }

  function RoleFor(id: string, liarIds: seq<string>): Role {
    if id in liarIds then Liar else Normal
  }

  /** `startGame` after the secret has been fetched (or has failed to be fetched: `fetched` is
      `None`, and no round state is published). The random shuffle is the permutation `perm`;
      the first `liarsCount` shuffled players become liars. */
  function Start(playersIn: seq<Entrant>, category: string, liarsCountIn: int,
                 fetched: Option<Secret>, perm: seq<nat>): (r: Option<RoundState>)
    requires IsPermutation(perm, |playersIn|)
    ensures r.None? <==> fetched.None?
    ensures r.Some? ==>
      var s := r.value;
      && s.phase == Reveal && s.roundNumber == 1 && s.currentIndex == 0 && !s.hasRevealedOnce
      && s.category == category && s.secretWord == fetched.value.text
      && s.secretMeta == fetched.value.meta.GetOr(SecretMeta(None))
      && !s.tied && !s.liarFound && s.eliminatedId == None
      && Ids(s.players) == EntrantIds(playersIn)
      && (forall i :: 0 <= i < |playersIn| ==>
            && s.players[i].name == playersIn[i].name
            && s.players[i].voteForId == None
            && (s.players[i].role == Liar <==> playersIn[i].id in s.liarIds))
      && (forall l :: l in s.liarIds ==> l in EntrantIds(playersIn))
      && (forall i :: 0 <= i < |s.liarIds| ==> i < |perm| && s.liarIds[i] == playersIn[perm[i]].id)
      && (|playersIn| >= 1 ==> |s.liarIds| == StartLiarsCount(|playersIn|, liarsCountIn))
      && (|playersIn| >= 3 ==> 1 <= |s.liarIds| && |s.liarIds| < |s.players| - |s.liarIds|)
      && (Distinct(EntrantIds(playersIn)) ==> Distinct(s.liarIds))
  {
    match fetched
    case None => None
    case Some(secret) =>
      var n := |playersIn|;
      var liarIds := ShuffledLiars(playersIn, perm, Min(StartLiarsCount(n, liarsCountIn), n));
      var players := FirstRoster(playersIn, liarIds);
      Some(RoundState(Reveal, 1, category, secret.text, players, liarIds, 0, false,
                      None, false, false, secret.meta.GetOr(SecretMeta(None))))
  }

  /** The ids of the first `count` players of the shuffled roster, in shuffled order. */
  function ShuffledLiars(playersIn: seq<Entrant>, perm: seq<nat>, count: int): (liarIds: seq<string>)
    requires IsPermutation(perm, |playersIn|)
    requires 0 <= count <= |playersIn|
    ensures |liarIds| == count
    ensures forall i :: 0 <= i < count ==> liarIds[i] == playersIn[perm[i]].id
    ensures forall l :: l in liarIds ==> l in EntrantIds(playersIn)
    ensures Distinct(EntrantIds(playersIn)) ==> Distinct(liarIds)
  {
    var liarIds := seq(count, i requires 0 <= i < count => playersIn[perm[i]].id);
    assert forall l :: l in liarIds ==> l in EntrantIds(playersIn) by {
      forall l | l in liarIds ensures l in EntrantIds(playersIn) {
        var i :| 0 <= i < count && liarIds[i] == l;
        assert EntrantIds(playersIn)[perm[i]] == l;
      }
    }
    liarIds
  }

  /** The round-one roster: the input players in input order, each with the role its id
      calls for and no vote. */
  function FirstRoster(playersIn: seq<Entrant>, liarIds: seq<string>): (players: seq<Player>)
    ensures Ids(players) == EntrantIds(playersIn)
    ensures forall i :: 0 <= i < |playersIn| ==>
      && players[i].name == playersIn[i].name
      && players[i].voteForId == None
      && (players[i].role == Liar <==> playersIn[i].id in liarIds)
  {
    var n := |playersIn|;
    var players := seq(n, i requires 0 <= i < n =>
      Player(playersIn[i].id, playersIn[i].name, RoleFor(playersIn[i].id, liarIds), None));
    assert Ids(players) == EntrantIds(playersIn);
    players
  }

  // ----- Reveal -----

  /** The headcount victory of the liars: at least as many liars as normals, that is, the liars
      make up at least half of the players. */
  function LiarsWin(s: RoundState): (win: bool)
    ensures win <==> 2 * |s.liarIds| >= |s.players|
    ensures |s.liarIds| == 0 ==> (win <==> s.players == [])
  {
    |s.liarIds| >= |s.players| - |s.liarIds|
  }

  /** `nextReveal`: pass the device to the next player; after the last one, either the liars
      already win by headcount or the first vote begins. */
  function NextReveal(s: RoundState): (t: RoundState)
    ensures s.phase != Reveal ==> t == s
    ensures s.phase == Reveal ==>
      && t.players == s.players && t.liarIds == s.liarIds && t.roundNumber == s.roundNumber
      && t.category == s.category && t.secretWord == s.secretWord && t.secretMeta == s.secretMeta
      && t.tied == s.tied && t.eliminatedId == s.eliminatedId
      && (t.phase == Reveal <==> s.currentIndex + 1 < |s.players|)
      && (t.phase == Reveal ==> t == s.(currentIndex := s.currentIndex + 1))
      && (t.phase == GameOver <==> s.currentIndex + 1 >= |s.players| && LiarsWin(s))
      && (t.phase == GameOver ==> !t.liarFound && t.currentIndex == s.currentIndex
                                  && t.hasRevealedOnce == s.hasRevealedOnce)
      && (t.phase == Vote <==> s.currentIndex + 1 >= |s.players| && !LiarsWin(s))
      && (t.phase == Vote ==> t.currentIndex == 0 && t.hasRevealedOnce && t.liarFound == s.liarFound)
  {
    if s.phase != Reveal then s
    else
      var next := s.currentIndex + 1;
      if next >= |s.players| then
        if LiarsWin(s) then s.(phase := GameOver, liarFound := false)
        else s.(phase := Vote, currentIndex := 0, hasRevealedOnce := true)
      else s.(currentIndex := next)
  }

  /** `nextReveal` called `k` times in a row. */
  function Reveals(s: RoundState, k: nat): (t: RoundState)
    ensures t.players == s.players && t.liarIds == s.liarIds
    ensures t.roundNumber == s.roundNumber && t.secretWord == s.secretWord
    decreases k
  {
    if k == 0 then s else Reveals(NextReveal(s), k - 1)
  }

  /** From a reveal at index `i` with `k = n - i` players still to look, exactly `k` calls of
      `nextReveal` end the reveal: each earlier call only moves to the next player, and the
      last one opens the first vote, or ends the game when the liars already win by headcount. */
  lemma {:induction false} RevealsReachVote(s: RoundState, k: nat)
    requires s.phase == Reveal && k >= 1 && s.currentIndex + k == |s.players|
    ensures forall j :: 0 <= j < k ==>
              Reveals(s, j).phase == Reveal && Reveals(s, j).currentIndex == s.currentIndex + j
    ensures Reveals(s, k).phase == Vote || Reveals(s, k).phase == GameOver
    ensures Reveals(s, k).phase == Vote <==> !LiarsWin(s)
    ensures Reveals(s, k).phase == Vote ==> Reveals(s, k).currentIndex == 0 && Reveals(s, k).hasRevealedOnce
    decreases k
  {
    var t := NextReveal(s);
    if k == 1 {
      assert Reveals(s, 1) == Reveals(t, 0) == t;
      assert Reveals(s, 0) == s;
    } else {
      assert t.phase == Reveal && t.currentIndex == s.currentIndex + 1;
      RevealsReachVote(t, k - 1);
      assert LiarsWin(t) == LiarsWin(s);
      assert Reveals(s, k) == Reveals(t, k - 1);
      forall j | 0 <= j < k
        ensures Reveals(s, j).phase == Reveal && Reveals(s, j).currentIndex == s.currentIndex + j
      {
        if j > 0 {
          assert Reveals(s, j) == Reveals(t, j - 1);
        }
      }
    }
  }

  // ----- Vote -----

  /** Every player with the voter's id now holds a ballot for the target; the others are untouched. */
  function RecordVote(players: seq<Player>, voterId: string, targetId: string): (r: seq<Player>)
    ensures |r| == |players| && Ids(r) == Ids(players)
    ensures forall i :: 0 <= i < |players| ==>
      && r[i].name == players[i].name && r[i].role == players[i].role
      && r[i].voteForId == (if players[i].id == voterId then Some(targetId) else players[i].voteForId)
  {
    seq(|players|, i requires 0 <= i < |players| =>
      if players[i].id == voterId then players[i].(voteForId := Some(targetId)) else players[i])
  }

  /** Every player holds a non-empty ballot: the count then sees one ballot per player, each the
      player's own vote. */
  function EveryoneVoted(players: seq<Player>): (all: bool)
    ensures all <==> |Ballots(players)| == |players|
    ensures all ==> forall i :: 0 <= i < |players| ==> players[i].voteForId == Some(Ballots(players)[i])
  {
    BallotsContents(players);
    forall i :: 0 <= i < |players| ==> Present(players[i].voteForId)
  }

  /** `submitVote`: record the ballot; once every player holds one, count them. The round is
      tied exactly when no target got more ballots than every other, the eliminated player is
      the target that did, and a liar is found exactly when that target is a liar. */
  function SubmitVote(s: RoundState, voterId: string, targetId: string): (t: RoundState)
    ensures s.phase != Vote || voterId == targetId ==> t == s
    ensures s.phase == Vote && voterId != targetId ==>
      && t.players == RecordVote(s.players, voterId, targetId)
      && t.liarIds == s.liarIds && t.roundNumber == s.roundNumber && t.hasRevealedOnce == s.hasRevealedOnce
      && t.category == s.category && t.secretWord == s.secretWord && t.secretMeta == s.secretMeta
      && (!EveryoneVoted(t.players) ==> t == s.(players := t.players, currentIndex := s.currentIndex + 1))
      && (EveryoneVoted(t.players) ==>
            && t.phase == Outcome && t.currentIndex == 0
            && IsVerdictOf(Ballots(t.players), Verdict(t.tied, t.eliminatedId))
            && (t.liarFound <==> t.eliminatedId.Some? && t.eliminatedId.value in s.liarIds))
  {
    if s.phase != Vote || voterId == targetId then s
    else
      var players := RecordVote(s.players, voterId, targetId);
      if !EveryoneVoted(players) then s.(players := players, currentIndex := s.currentIndex + 1)
      else CloseVote(s, players)
  }

  /** The count once every ballot is in, and the move to the outcome screen. */
  function CloseVote(s: RoundState, players: seq<Player>): (t: RoundState)
    ensures t == s.(players := players, phase := Outcome, currentIndex := 0,
                    eliminatedId := t.eliminatedId, liarFound := t.liarFound, tied := t.tied)
    ensures IsVerdictOf(Ballots(players), Verdict(t.tied, t.eliminatedId))
    ensures t.liarFound <==> t.eliminatedId.Some? && t.eliminatedId.value in s.liarIds
  {
    var b := Ballots(players);
    var v := TallyVotes(b);
    var liarFound := Present(v.eliminatedId) && v.eliminatedId.value in s.liarIds;
    s.(players := players, phase := Outcome, currentIndex := 0,
       eliminatedId := v.eliminatedId, liarFound := liarFound, tied := v.tied)
  }

  // ----- Next round -----

  /** The vote removed somebody: not tied and a (truthy) eliminated id. */
  predicate Eliminates(s: RoundState) {
    !s.tied && Present(s.eliminatedId)
  }

  /** The vote removed a liar. */
  predicate CaughtLiar(s: RoundState) {
    Eliminates(s) && s.eliminatedId.value in s.liarIds
  }

  function NextLiarIds(s: RoundState): (r: seq<string>)
    ensures forall l :: l in r <==> l in s.liarIds && !(CaughtLiar(s) && l == s.eliminatedId.value)
    ensures Distinct(s.liarIds) ==> Distinct(r)
  {
    if CaughtLiar(s) then Without(s.liarIds, s.eliminatedId.value) else s.liarIds
  }

  function Survivors(s: RoundState): (r: seq<Player>)
    ensures forall p :: p in r <==> p in s.players && !(Eliminates(s) && p.id == s.eliminatedId.value)
    ensures Ids(r) == if Eliminates(s) then Without(Ids(s.players), s.eliminatedId.value) else Ids(s.players)
  {
    if Eliminates(s) then
      IdsRemoveId(s.players, s.eliminatedId.value);
      RemoveId(s.players, s.eliminatedId.value)
    else s.players
  }

  /** Roles recomputed from the liar ids and all votes cleared. */
  function Rebuild(players: seq<Player>, liarIds: seq<string>): (r: seq<Player>)
    ensures |r| == |players| && Ids(r) == Ids(players)
    ensures forall i :: 0 <= i < |players| ==>
      && r[i].name == players[i].name && r[i].voteForId == None
      && (r[i].role == Liar <==> players[i].id in liarIds)
  {
    seq(|players|, i requires 0 <= i < |players| =>
      Player(players[i].id, players[i].name, RoleFor(players[i].id, liarIds), None))
  }

  /** `nextRoundSameWord` (it does not check the phase): drop a caught liar from the liar ids;
      if none remain the normals win; otherwise remove the eliminated player, rebuild the roles
      and either let the liars win by headcount or wait on the ready screen. */
  function NextRoundSameWord(s: RoundState): (t: RoundState)
    ensures t.phase == GameOver || t.phase == Ready
    ensures forall l :: l in t.liarIds ==> l in s.liarIds
    ensures t.category == s.category && t.secretWord == s.secretWord && t.secretMeta == s.secretMeta
    ensures t.roundNumber == s.roundNumber
    ensures (t.phase == GameOver && t.liarFound) <==>
              forall l :: l in s.liarIds ==> CaughtLiar(s) && l == s.eliminatedId.value
    ensures t.phase == GameOver ==> t == s.(phase := GameOver, liarFound := t.liarFound)
    ensures t.phase == GameOver && !t.liarFound ==>
              |NextLiarIds(s)| >= |Survivors(s)| - |NextLiarIds(s)|
    ensures t.phase == Ready ==>
      && (forall l :: l in t.liarIds <==> l in s.liarIds && !(CaughtLiar(s) && l == s.eliminatedId.value))
      && t.liarIds != [] && !LiarsWin(t)
      && Ids(t.players) == Ids(Survivors(s))
      && (forall i :: 0 <= i < |t.players| ==>
            && t.players[i].name == Survivors(s)[i].name && t.players[i].voteForId == None
            && (t.players[i].role == Liar <==> t.players[i].id in t.liarIds))
      && !t.tied && t.eliminatedId == None && !t.liarFound
      && t.currentIndex == 0 && t.hasRevealedOnce
    ensures s.tied ==> t.liarIds == s.liarIds && Ids(Survivors(s)) == Ids(s.players)
    ensures Distinct(s.liarIds) ==> Distinct(t.liarIds)
  {
    var liarIds := NextLiarIds(s);
    if |liarIds| == 0 then s.(phase := GameOver, liarFound := true)
    else
      assert liarIds[0] in liarIds;
      var players := Rebuild(Survivors(s), liarIds);
      if |liarIds| >= |players| - |liarIds| then s.(phase := GameOver, liarFound := false)
      else RoundState(Ready, s.roundNumber, s.category, s.secretWord, players, liarIds, 0, true,
                      None, false, false, s.secretMeta)
  }

  // ----- Ready, game over, remaining liars -----

  /** `beginVoteAfterReady`: re-check the headcount, then start the next round's vote. */
  function BeginVoteAfterReady(s: RoundState): (t: RoundState)
    ensures s.phase != Ready ==> t == s
    ensures s.phase == Ready && LiarsWin(s) ==> t == s.(phase := GameOver, liarFound := false)
    ensures s.phase == Ready && !LiarsWin(s) ==>
      t == s.(phase := Vote, roundNumber := s.roundNumber + 1, currentIndex := 0)
  {
    if s.phase != Ready then s
    else if LiarsWin(s) then s.(phase := GameOver, liarFound := false)
    else s.(phase := Vote, roundNumber := s.roundNumber + 1, currentIndex := 0)
  }

  /** `goToGameOver`: only the phase changes; the found flag is kept. */
  function GoToGameOver(s: RoundState): (t: RoundState)
    ensures t.phase == GameOver && t.liarFound == s.liarFound
    ensures t.(phase := s.phase) == s
  {
    s.(phase := GameOver)
  }

  /** The `remainingLiars` the outcome screen receives: the liars other than the eliminated id. */
  function RemainingLiars(s: RoundState): (r: nat)
    ensures r <= |s.liarIds|
    ensures !Present(s.eliminatedId) ==> r == |s.liarIds|
    ensures Present(s.eliminatedId) && Distinct(s.liarIds) ==>
      r == |s.liarIds| - (if s.eliminatedId.value in s.liarIds then 1 else 0)
  {
    if Present(s.eliminatedId) then |Without(s.liarIds, s.eliminatedId.value)| else |s.liarIds|
  }

  // ----- Ids of filtered players -----

  /** The ids left after dropping a player are the old ids without that one. */
  lemma IdsRemoveId(ps: seq<Player>, id: string)
    ensures Ids(RemoveId(ps, id)) == Without(Ids(ps), id)
  {
    IdsFilter(ps, IdIsNot(id), NotEqual(id));
  }

  lemma {:induction false} IdsFilter(ps: seq<Player>, keepP: Player -> bool, keepS: string -> bool)
    requires forall p :: keepP(p) == keepS(p.id)
    ensures Ids(Filter(ps, keepP)) == Filter(Ids(ps), keepS)
  {
    if ps != [] {
      var h := if keepP(ps[0]) then [ps[0]] else [];
      var rest := Filter(ps[1..], keepP);
      assert Filter(ps, keepP) == h + rest;
      IdsFilter(ps[1..], keepP, keepS);
      IdsTail(ps);
      IdsAppend(h, rest);
      assert Ids(h) == if keepS(ps[0].id) then [ps[0].id] else [];
    }
  }

  lemma IdsTail(ps: seq<Player>)
    requires ps != []
    ensures Ids(ps) == [ps[0].id] + Ids(ps[1..])
  {
  }

  lemma IdsAppend(a: seq<Player>, b: seq<Player>)
    ensures Ids(a + b) == Ids(a) + Ids(b)
  {
  }
}

=== FILE: game.dfy ===
/** The whole app (src/App.tsx): the session is either the lobby (no round state) or a round.
    The screens call the handlers; `Dispatch` routes one call, `Run` a sequence of them. The
    invariant `Inv` holds of every round a game can reach, and the lemmas tie the screens'
    decisions to the state machine. */
module Game {
  import opened Util
  import opened Types
  import opened Tally
  import opened Engine
  import LobbyScreen
  import OutcomeScreen
  import RevealScreen
  import PlayerTileView
  import Text

  /** The handlers a screen can call while a round exists. */
  datatype Action =
    | AdvanceReveal                              // `nextReveal`
    | CastVote(voterId: string, targetId: string) // `submitVote`
    | ContinueRound                              // `nextRoundSameWord`
    | BeginVote                                  // `beginVoteAfterReady`
    | FinishGame                                 // `goToGameOver`
    | LeaveGame                                  // `backToLobby`

  /** One handler applied to a round; `backToLobby` drops the round. */
  function Step(s: RoundState, a: Action): (t: Option<RoundState>)
    ensures t.None? <==> a == LeaveGame
    ensures t.Some? ==> SameGame(s, t.value)
  {
    match a
    case AdvanceReveal => Some(NextReveal(s))
    case CastVote(voterId, targetId) => Some(SubmitVote(s, voterId, targetId))
    case ContinueRound => Some(NextRoundSameWord(s))
    case BeginVote => Some(BeginVoteAfterReady(s))
    case FinishGame => Some(GoToGameOver(s))
    case LeaveGame => None
  }

  /** Every handler starts with `if (!state) return`: in the lobby nothing happens. */
  function Dispatch(session: Option<RoundState>, a: Action): (r: Option<RoundState>)
    ensures session.None? ==> r.None?
    ensures session.Some? ==> r == Step(session.value, a)
  {
    match session
    case None => None
    case Some(s) => Step(s, a)
  }

  /** A sequence of handler calls. */
  function Run(session: Option<RoundState>, acts: seq<Action>): (r: Option<RoundState>)
    ensures r.Some? ==> session.Some? && SameGame(session.value, r.value)
    ensures LeaveGame in acts ==> r.None?
    ensures session.Some? && LeaveGame !in acts ==> r.Some?
    decreases |acts|
  {
    if acts == [] then session
    else
      var next := Dispatch(session, acts[0]);
      var r := Run(next, acts[1..]);
      RunStepFacts(session, acts, next, r);
      r
  }

  /** Glues the first call of a run to the rest of it. */
  lemma RunStepFacts(session: Option<RoundState>, acts: seq<Action>, next: Option<RoundState>, r: Option<RoundState>)
    requires acts != [] && next == Dispatch(session, acts[0])
    requires r.Some? ==> next.Some? && SameGame(next.value, r.value)
    requires LeaveGame in acts[1..] ==> r.None?
    requires next.Some? && LeaveGame !in acts[1..] ==> r.Some?
    ensures r.Some? ==> session.Some? && SameGame(session.value, r.value)
    ensures LeaveGame in acts ==> r.None?
    ensures session.Some? && LeaveGame !in acts ==> r.Some?
  {
    if r.Some? {
      SameGameTransitive(session.value, next.value, r.value);
    }
    assert acts == [acts[0]] + acts[1..];
  }

  /** The categories the lobby is offered: the fetched ones, or the two built-in ones when none
      arrived. */
  function LobbyCategories(fetched: seq<string>): (c: seq<string>)
    ensures c != []
    ensures fetched != [] ==> c == fetched
  {
    if fetched != [] then fetched else ["peliculas", "famosos"]
  }

  // ----- What stays fixed during a game -----

  /** A later round of the same game: same secret, category and photo; no new liar; the round
      number never goes back; once the roles were revealed they stay revealed. */
  ghost predicate SameGame(s: RoundState, t: RoundState) {
    && t.category == s.category && t.secretWord == s.secretWord && t.secretMeta == s.secretMeta
    && (forall l :: l in t.liarIds ==> l in s.liarIds)
    && s.roundNumber <= t.roundNumber
    && (s.hasRevealedOnce ==> t.hasRevealedOnce)
  }

  lemma SameGameTransitive(a: RoundState, b: RoundState, c: RoundState)
    requires SameGame(a, b) && SameGame(b, c)
    ensures SameGame(a, c)
  {
  }

  // ----- The invariant -----

  /** Every player's role agrees with the liar ids. */
  ghost predicate RolesAgree(players: seq<Player>, liarIds: seq<string>) {
    forall i :: 0 <= i < |players| ==> (players[i].role == Liar <==> players[i].id in liarIds)
  }

  /** What the outcome screen may rely on: a tie has no eliminated id, any eliminated id is a
      non-empty string, and a liar was found exactly when the eliminated id is a liar's. */
  ghost predicate OutcomeConsistent(s: RoundState) {
    && (s.tied <==> s.eliminatedId.None?)
    && (s.eliminatedId.Some? ==> Present(s.eliminatedId))
    && (s.liarFound <==> s.eliminatedId.Some? && s.eliminatedId.value in s.liarIds)
  }

  /** The invariant of every round state the app can reach from a start with distinct ids. */
  ghost predicate Inv(s: RoundState) {
    && s.phase != Lobby
    && Distinct(Ids(s.players)) && Distinct(s.liarIds)
    && (forall l :: l in s.liarIds ==> l in Ids(s.players))
    && RolesAgree(s.players, s.liarIds)
    && s.currentIndex >= 0
    && (s.phase == Reveal ==>
          (s.players == [] && s.currentIndex == 0) || (s.currentIndex < |s.players| && s.liarIds != []))
    && (s.phase == Vote || s.phase == Outcome || s.phase == Ready ==>
          s.liarIds != [] && !LiarsWin(s) && s.hasRevealedOnce)
    && (s.phase == Outcome ==> OutcomeConsistent(s))
  }

  ghost predicate SessionInv(session: Option<RoundState>) {
    session.Some? ==> Inv(session.value)
  }

  /** A start with distinct player ids establishes the invariant. */
  lemma StartEstablishesInv(playersIn: seq<Entrant>, category: string, liarsCountIn: int,
                            fetched: Option<Secret>, perm: seq<nat>)
    requires IsPermutation(perm, |playersIn|)
    requires Distinct(EntrantIds(playersIn))
    ensures SessionInv(Start(playersIn, category, liarsCountIn, fetched, perm))
  {
    var r := Start(playersIn, category, liarsCountIn, fetched, perm);
    if r.Some? {
      var s := r.value;
      assert forall i :: 0 <= i < |playersIn| ==> s.players[i].id == Ids(s.players)[i] == playersIn[i].id;
      if s.players != [] {
        assert |s.liarIds| == StartLiarsCount(|playersIn|, liarsCountIn) >= 1;
      }
    }
  }

  lemma NextRevealPreservesInv(s: RoundState)
    requires Inv(s)
    ensures Inv(NextReveal(s))
  {
  }

  /** A ballot changes only a vote; closing the vote yields a consistent outcome. */
  lemma SubmitVotePreservesInv(s: RoundState, voterId: string, targetId: string)
    requires Inv(s)
    ensures Inv(SubmitVote(s, voterId, targetId))
  {
    var t := SubmitVote(s, voterId, targetId);
    if s.phase == Vote && voterId != targetId {
      assert Ids(t.players) == Ids(s.players);
      assert forall i :: 0 <= i < |t.players| ==> t.players[i].id == Ids(t.players)[i] == s.players[i].id;
      if t.phase == Outcome && t.eliminatedId.Some? {
        assert IsUniqueTop(Ballots(t.players), t.eliminatedId.value);
      }
    }
  }

  /** The next round keeps the invariant: the caught liar leaves the liar ids and the eliminated
      player leaves the roster, so every remaining liar is still a player. */
  lemma NextRoundPreservesInv(s: RoundState)
    requires Inv(s)
    ensures Inv(NextRoundSameWord(s))
  {
    var t := NextRoundSameWord(s);
    if t.phase == Ready {
      var survivors := Ids(Survivors(s));
      forall l | l in t.liarIds ensures l in Ids(t.players) {
        assert l in s.liarIds && l in Ids(s.players);
        if Eliminates(s) {
          assert l != s.eliminatedId.value;
        }
      }
      forall i | 0 <= i < |t.players| ensures t.players[i].id == Ids(t.players)[i] {
      }
    }
  }

  lemma BeginVotePreservesInv(s: RoundState)
    requires Inv(s)
    ensures Inv(BeginVoteAfterReady(s))
  {
  }

  lemma FinishGamePreservesInv(s: RoundState)
    requires Inv(s)
    ensures Inv(GoToGameOver(s))
  {
  }

  lemma StepPreservesInv(s: RoundState, a: Action)
    requires Inv(s)
    ensures SessionInv(Step(s, a))
  {
    match a
    case AdvanceReveal => NextRevealPreservesInv(s);
    case CastVote(voterId, targetId) => SubmitVotePreservesInv(s, voterId, targetId);
    case ContinueRound => NextRoundPreservesInv(s);
    case BeginVote => BeginVotePreservesInv(s);
    case FinishGame => FinishGamePreservesInv(s);
    case LeaveGame =>
  }

  /** Any sequence of handler calls keeps the invariant. */
  lemma {:induction false} RunPreservesInv(session: Option<RoundState>, acts: seq<Action>)
    requires SessionInv(session)
    ensures SessionInv(Run(session, acts))
    decreases |acts|
  {
    if acts != [] {
      if session.Some? {
        StepPreservesInv(session.value, acts[0]);
      }
      RunPreservesInv(Dispatch(session, acts[0]), acts[1..]);
    }
  }

  // ----- The screens against the state machine -----

  /** The reveal card calls a player a liar exactly when that player's role is the liar's. */
  lemma RevealShowsRole(s: RoundState)
    requires Inv(s) && s.phase == Reveal && s.players != []
    ensures 0 <= s.currentIndex < |s.players|
    ensures RevealScreen.IsLiar(s.players, s.currentIndex, s.liarIds) <==> s.players[s.currentIndex].role == Liar
  {
    assert s.players[s.currentIndex].id == Ids(s.players)[s.currentIndex];
  }

  /** A liar's card never shows the secret's photo. */
  lemma LiarNeverSeesPhoto(s: RoundState, visible: bool, showImg: bool)
    requires Inv(s) && s.phase == Reveal && s.players != []
    requires s.players[s.currentIndex].role == Liar
    ensures !RevealScreen.ShowsSecretImage(RevealScreen.IsLiar(s.players, s.currentIndex, s.liarIds),
                                           visible, s.category, s.secretMeta.image, showImg)
  {
    RevealShowsRole(s);
  }

  /** A normal's revealed card for the famous-people category shows the secret's photo whenever
      it has a URL that has not failed to load. */
  lemma NormalSeesPhoto(s: RoundState, visible: bool, showImg: bool)
    requires Inv(s) && s.phase == Reveal && s.players != []
    requires s.players[s.currentIndex].role == Normal
    requires visible && showImg && Present(s.secretMeta.image) && Text.Lower(s.category) == "famosos"
    ensures RevealScreen.ShowsSecretImage(RevealScreen.IsLiar(s.players, s.currentIndex, s.liarIds),
                                          visible, s.category, s.secretMeta.image, showImg)
  {
    RevealShowsRole(s);
  }

  /** The outcome screen offers to finish the game exactly when continuing would end it with
      every liar found. */
  lemma FinishIffAllCaught(s: RoundState)
    requires Inv(s) && s.phase == Outcome
    ensures OutcomeScreen.ShowFinish(s.tied, s.liarFound, RemainingLiars(s)) <==>
            (NextRoundSameWord(s).phase == GameOver && NextRoundSameWord(s).liarFound)
  {
    var t := NextRoundSameWord(s);
    if OutcomeScreen.ShowFinish(s.tied, s.liarFound, RemainingLiars(s)) {
      var e := s.eliminatedId.value;
      assert |s.liarIds| == 1;
      assert s.liarIds == [s.liarIds[0]];
      assert s.liarIds[0] == e;
    }
    if t.phase == GameOver && t.liarFound {
      var e := s.eliminatedId.value;
      assert s.liarIds[0] in s.liarIds;
      assert CaughtLiar(s);
      forall n | 0 <= n < |s.liarIds| ensures s.liarIds[n] == e {
        assert s.liarIds[n] in s.liarIds;
      }
      DistinctConstant(s.liarIds, e);
    }
  }

  /** The number of liars the lobby passes on is the number `startGame` uses. */
  lemma LobbyCountSurvivesStart(l: LobbyScreen.LobbyState)
    requires LobbyScreen.CanStart(l)
    ensures StartLiarsCount(|l.selected|, LobbyScreen.LiarsClamped(l)) == LobbyScreen.LiarsClamped(l)
  {
  }

  /** A game the lobby lets start (three players or more) begins with at least one liar and
      more normals than liars, so the liars cannot win before the first vote. */
  lemma LobbyStartIsPlayable(l: LobbyScreen.LobbyState, fetched: Option<Secret>, perm: seq<nat>)
    requires LobbyScreen.CanStart(l) && fetched.Some?
    requires IsPermutation(perm, |l.selected|)
    ensures var r := Start(l.selected, l.category, LobbyScreen.LiarsClamped(l), fetched, perm);
            && r.Some?
            && |r.value.liarIds| == LobbyScreen.LiarsClamped(l)
            && 1 <= |r.value.liarIds| && !LiarsWin(r.value)
  {
    LobbyCountSurvivesStart(l);
  }

  /** A player tile shows what the lobby's roster tile is meant to show: the photo exactly while
      an image path exists and has not failed to load, the initials otherwise. */
  lemma TileFaceIsIntendedPicture(p: LobbyScreen.Preset, loadFailed: bool)
    ensures var face := PlayerTileView.TileFace(p.name, p.image, loadFailed);
            var picture := LobbyScreen.PresetPicture(p, loadFailed);
            && (face.Photo? <==> picture.photoVisible)
            && (face.Fallback? <==> picture.initialsVisible)
  {
  }
}

=== FILE: lobby.dfy ===
/** The lobby (src/components/Lobby.tsx): choosing the players, the category and the number of
    liars before a game starts. Every handler is a pure function from the lobby's state to its
    next state. */
module LobbyScreen {
  import opened Util
  import opened Types
  import opened Text

  /** A player of the fixed roster (src/data/presets.tsx). */
  datatype Preset = Preset(id: string, name: string, image: Option<string>)

  /** Where a roster player's photo lives: `/players/<id>.jpg`. */
  function PhotoPath(id: string): string {
    "/players/" + id + ".jpg"
  }

  /** The fixed roster, in display order. */
  const Presets: seq<Preset> := [
    Preset("fausto", "Fausto", Some(PhotoPath("fausto"))),
    Preset("ulises", "Ulises", Some(PhotoPath("ulises"))),
    Preset("ivan", "Ivan", Some(PhotoPath("ivan"))),
    Preset("lio", "Lio", Some(PhotoPath("lio"))),
    Preset("cami", "Cami", Some(PhotoPath("cami"))),
    Preset("aldana", "Aldana", Some(PhotoPath("aldana"))),
    Preset("vanina", "Vanina", Some(PhotoPath("vanina"))),
    Preset("emi", "Emi", Some(PhotoPath("emi"))),
    Preset("naza", "Naza", Some(PhotoPath("naza"))),
    Preset("german", "German", Some(PhotoPath("german"))),
    Preset("pupy", "Pupy", Some(PhotoPath("pupy"))),
    Preset("belu", "belu", Some(PhotoPath("belu")))
  ]

  /** The roster: twelve players with distinct, blank-free ids and non-empty names, each with an
      image path `/players/<id>.jpg`. */
  lemma PresetsRoster()
    ensures |Presets| == 12
    ensures forall i, j :: 0 <= i < j < |Presets| ==> Presets[i].id != Presets[j].id
    ensures forall i :: 0 <= i < |Presets| ==> Presets[i].image == Some(PhotoPath(Presets[i].id)) && Present(Presets[i].image)
    ensures forall i :: 0 <= i < |Presets| ==> ' ' !in Presets[i].id && Presets[i].name != ""
  {
  }

  /** The lobby's state: the chosen players in the order they were chosen, the category, the
      requested number of liars and the text of the manual-name input. */
  datatype LobbyState = LobbyState(selected: seq<Entrant>, category: string, liarsCount: int, manualName: string)

  /** The state the lobby opens with: nobody chosen, one liar, and the first category offered
      (or `peliculas` when the first one is missing or empty). */
  function InitialLobby(categories: seq<string>): (l: LobbyState)
    ensures l.selected == [] && l.liarsCount == 1 && l.manualName == ""
    ensures l.category != ""
    ensures categories != [] && categories[0] != "" ==> l.category == categories[0]
    ensures categories == [] || categories[0] == "" ==> l.category == "peliculas"
  {
    var category := if categories != [] && categories[0] != "" then categories[0] else "peliculas";
    LobbyState([], category, 1, "")
  }

  /** The most liars `n` chosen players allow: fewer liars than the others, and at least one. */
  function MaxLiars(n: int): (m: int)
    ensures m >= 1
    ensures n >= 3 ==> 2 * m + 1 <= n <= 2 * m + 2
    ensures n <= 2 ==> m == 1
  {
    Max(1, (n - 1) / 2)
  }

  /** The number of liars the lobby shows and passes on: the request pulled into `1..MaxLiars`. */
  function LiarsClamped(l: LobbyState): (c: int)
    ensures 1 <= c <= MaxLiars(|l.selected|)
    ensures 1 <= l.liarsCount <= MaxLiars(|l.selected|) ==> c == l.liarsCount
    ensures l.liarsCount < 1 ==> c == 1
    ensures l.liarsCount > MaxLiars(|l.selected|) ==> c == MaxLiars(|l.selected|)
  {
    Min(Max(1, l.liarsCount), Max(1, MaxLiars(|l.selected|)))
  }

  /** After the roster changes to `n` players, a request above the new maximum is lowered to it;
      a request within it is kept. */
  function FitLiars(liarsCount: int, n: int): (c: int)
    ensures c <= liarsCount && c <= MaxLiars(n)
    ensures c == liarsCount || c == MaxLiars(n)
  {
    if liarsCount > MaxLiars(n) then MaxLiars(n) else liarsCount
  }

  /** Whether some chosen player has the id. */
  predicate HasId(es: seq<Entrant>, id: string) {
    exists i :: 0 <= i < |es| && es[i].id == id
  }

  /** `toggleSelect`: a chosen player is removed (with every entry of that id), any other is
      appended; the liar request is refitted to the new roster. */
  function ToggleSelect(l: LobbyState, p: Entrant): (r: LobbyState)
    ensures r.category == l.category && r.manualName == l.manualName
    ensures HasId(r.selected, p.id) <==> !HasId(l.selected, p.id)
    ensures HasId(l.selected, p.id) ==> forall e :: e in r.selected <==> e in l.selected && e.id != p.id
    ensures HasId(l.selected, p.id) ==> IsSubsequence(r.selected, l.selected)
    ensures HasId(l.selected, p.id) ==>
              forall e :: multiset(r.selected)[e] == if e.id != p.id then multiset(l.selected)[e] else 0
    ensures !HasId(l.selected, p.id) ==> r.selected == l.selected + [p]
    ensures r.liarsCount == FitLiars(l.liarsCount, |r.selected|)
  {
    var next := if HasId(l.selected, p.id) then RemoveEntrant(l.selected, p.id) else l.selected + [p];
    assert !HasId(l.selected, p.id) ==> next[|l.selected|].id == p.id;
    assert forall i :: 0 <= i < |next| ==> next[i] in next;
    l.(selected := next, liarsCount := FitLiars(l.liarsCount, |next|))
  }

  /** `removeSelected`: every entry with the id leaves the roster, the others keep their order. */
  function RemoveSelected(l: LobbyState, id: string): (r: LobbyState)
    ensures r.category == l.category && r.manualName == l.manualName
    ensures forall e :: e in r.selected <==> e in l.selected && e.id != id
    ensures IsSubsequence(r.selected, l.selected)
    ensures forall e :: multiset(r.selected)[e] == if e.id != id then multiset(l.selected)[e] else 0
    ensures !HasId(r.selected, id)
    ensures !HasId(l.selected, id) ==> r.selected == l.selected
    ensures r.liarsCount == FitLiars(l.liarsCount, |r.selected|)
  {
    var next := RemoveEntrant(l.selected, id);
    assert !HasId(l.selected, id) ==> forall e :: e in l.selected ==> e.id != id;
    assert forall i :: 0 <= i < |next| ==> next[i] in next;
    l.(selected := next, liarsCount := FitLiars(l.liarsCount, |next|))
  }

  /** The typed name matches, ignoring letter case, the name of a chosen player. */
  predicate NameSelected(selected: seq<Entrant>, name: string) {
    exists i :: 0 <= i < |selected| && Lower(selected[i].name) == Lower(name)
  }

  /** The typed name matches, ignoring letter case, a roster player who is chosen. */
  predicate PresetSelected(selected: seq<Entrant>, name: string) {
    exists j :: 0 <= j < |Presets| && Lower(Presets[j].name) == Lower(name) && HasId(selected, Presets[j].id)
  }

  /** `addManual`, with `freshId` standing for the id the lobby makes up from the name. A blank
      input does nothing; a name already present clears the input and adds nobody; any other
      name is appended, trimmed, and the input is cleared. */
  function AddManual(l: LobbyState, freshId: string): (r: LobbyState)
    ensures Trim(l.manualName) == [] ==> r == l
    ensures Trim(l.manualName) != [] ==> r.manualName == "" && r.category == l.category
    ensures r.selected == l.selected || r.selected == l.selected + [Entrant(freshId, Trim(l.manualName))]
    ensures r.selected != l.selected <==>
              Trim(l.manualName) != [] && !NameSelected(l.selected, Trim(l.manualName))
                                       && !PresetSelected(l.selected, Trim(l.manualName))
    ensures r.selected != l.selected ==>
              forall i :: 0 <= i < |l.selected| ==> Lower(l.selected[i].name) != Lower(Trim(l.manualName))
    ensures r.liarsCount == (if r.selected == l.selected then l.liarsCount else FitLiars(l.liarsCount, |r.selected|))
  {
    var name := Trim(l.manualName);
    if name == [] then l
    else if NameSelected(l.selected, name) || PresetSelected(l.selected, name) then l.(manualName := "")
    else
      var next := l.selected + [Entrant(freshId, name)];
      assert |next| != |l.selected|;
      l.(selected := next, liarsCount := FitLiars(l.liarsCount, |next|), manualName := "")
  }

  /** `canStart`: a game needs at least three players. */
  function CanStart(l: LobbyState): (ok: bool)
    ensures ok <==> MaxLiars(|l.selected|) * 2 + 1 <= |l.selected|
    ensures ok ==> 1 <= LiarsClamped(l) && LiarsClamped(l) < |l.selected| - LiarsClamped(l)
  {
    |l.selected| >= 3
  }

  /** The first character of each token, an empty token contributing nothing. */
  function FirstChars(tokens: seq<string>): (r: string)
    ensures |r| <= |tokens|
    ensures tokens != [] && tokens[0] != [] ==> r != [] && r[0] == tokens[0][0]
    ensures (forall k :: 0 <= k < |tokens| ==> tokens[k] == []) ==> r == []
    ensures (forall k :: 0 <= k < |tokens| ==> tokens[k] != []) ==>
              |r| == |tokens| && forall k :: 0 <= k < |tokens| ==> r[k] == tokens[k][0]
  {
    if tokens == [] then []
    else
      var rest := FirstChars(tokens[1..]);
      assert (forall k :: 0 <= k < |tokens| ==> tokens[k] != []) ==>
               forall k :: 0 <= k < |tokens[1..]| ==> tokens[1..][k] != [];
      (if tokens[0] == [] then [] else [tokens[0][0]]) + rest
  }

  /** The first characters of two token lists in a row are those of each list in a row. */
  lemma {:induction false} FirstCharsAppend(a: seq<string>, b: seq<string>)
    ensures FirstChars(a + b) == FirstChars(a) + FirstChars(b)
  {
    if a == [] {
      assert a + b == b;
    } else {
      assert (a + b)[0] == a[0];
      assert (a + b)[1..] == a[1..] + b;
      FirstCharsAppend(a[1..], b);
    }
  }

  /** The fallback text of a roster tile: the first letters of the first two space-separated
      words, upper-cased, or `?` when there are none. */
  function TileInitials(name: string): (r: string)
    ensures 1 <= |r| <= 2
    ensures forall i :: 0 <= i < |r| ==> !IsLowerAscii(r[i])
    ensures name != [] && name[0] != ' ' ==> r[0] == UpperChar(name[0])
    ensures (forall i :: 0 <= i < |name| ==> name[i] == ' ') ==> r == "?"
  {
    var tokens := SplitOn(name, ' ');
    SplitOnFirst(name, ' ', []);
    SplitOnOnlySeparators(name, ' ');
    var firsts := FirstChars(tokens);
    var up := Upper(firsts[..Min(2, |firsts|)]);
    if up == [] then "?" else up
  }

  /** A single word free of blanks gives its own upper-cased first letter. */
  lemma OneWordTileInitials(w: string)
    requires w != [] && ' ' !in w
    ensures TileInitials(w) == [UpperChar(w[0])]
  {
    SplitOnWord(w, [], ' ', []);
    assert w + [] == w && [] + w == w;
    assert SplitOn(w, ' ') == [w];
  }

  /** Two blank-free words separated by a blank give the upper-cased first letter of each,
      whatever follows the second word. */
  lemma TwoWordTileInitials(w1: string, w2: string, rest: string)
    requires w1 != [] && w2 != [] && ' ' !in w1 && ' ' !in w2
    ensures TileInitials(w1 + " " + w2 + rest) == [UpperChar(w1[0]), UpperChar(w2[0])]
  {
    var name := w1 + " " + w2 + rest;
    var tail := SplitOnFrom(w2 + rest, ' ', []);
    assert name == w1 + (" " + (w2 + rest));
    SplitOnWord(w1, " " + (w2 + rest), ' ', []);
    assert [] + w1 == w1;
    assert (" " + (w2 + rest))[1..] == w2 + rest;
    assert SplitOn(name, ' ') == [w1] + tail;
    SplitOnFirst(w2 + rest, ' ', []);
    assert tail[0] != [] && tail[0][0] == w2[0];
    FirstCharsAppend([w1], tail);
    assert FirstChars([w1]) == [w1[0]];
    var firsts := FirstChars([w1] + tail);
    assert firsts[..2] == [w1[0], w2[0]];
  }

  /** Tapping an unchosen player twice leaves the roster as it was. */
  lemma ToggleTwiceRestores(l: LobbyState, p: Entrant)
    requires !HasId(l.selected, p.id)
    ensures ToggleSelect(ToggleSelect(l, p), p).selected == l.selected
  {
    var keep := EntrantIdIsNot(p.id);
    var l1 := ToggleSelect(l, p);
    assert l1.selected == l.selected + [p];
    assert l1.selected[|l.selected|].id == p.id;
    assert ToggleSelect(l1, p).selected == Filter(l1.selected, keep);
    FilterDropsLast(l.selected, p, keep);
  }

  /** Tapping a chosen player's tile does what its remove button does. */
  lemma ToggleChosenIsRemove(l: LobbyState, p: Entrant)
    requires HasId(l.selected, p.id)
    ensures ToggleSelect(l, p) == RemoveSelected(l, p.id)
  {
  }

  /** Removing a player twice removes nothing the second time. */
  lemma RemoveSelectedIdempotent(l: LobbyState, id: string)
    ensures RemoveSelected(RemoveSelected(l, id), id).selected == RemoveSelected(l, id).selected
  {
  }

  /** Typing the same name again after it was added adds nobody. */
  lemma AddManualOnce(l: LobbyState, id1: string, id2: string)
    ensures var l1 := AddManual(l, id1);
            AddManual(l1.(manualName := l.manualName), id2).selected == l1.selected
  {
    var l1 := AddManual(l, id1);
    if l1.selected != l.selected {
      assert l1.selected[|l.selected|].name == Trim(l.manualName);
      assert NameSelected(l1.selected, Trim(l.manualName));
    }
  }

  /** Deleting entries from a roster with distinct ids leaves the ids distinct. */
  lemma {:induction false} SubsequenceKeepsDistinctIds(r: seq<Entrant>, es: seq<Entrant>)
    requires IsSubsequence(r, es) && Distinct(EntrantIds(es))
    ensures Distinct(EntrantIds(r))
    decreases |es|
  {
    if r != [] {
      assert Distinct(EntrantIds(es[1..])) by {
        forall i, j | 0 <= i < j < |es[1..]| ensures EntrantIds(es[1..])[i] != EntrantIds(es[1..])[j] {
          assert EntrantIds(es)[i + 1] != EntrantIds(es)[j + 1];
        }
      }
      if r[0] == es[0] {
        SubsequenceKeepsDistinctIds(r[1..], es[1..]);
        SubsequenceMembers(r[1..], es[1..]);
        forall j | 1 <= j < |r| ensures r[j].id != r[0].id {
          assert r[1..][j - 1] in es[1..];
          var k :| 0 <= k < |es[1..]| && es[1..][k] == r[j];
          assert EntrantIds(es)[k + 1] == r[j].id;
        }
        forall i, j | 0 <= i < j < |r| ensures EntrantIds(r)[i] != EntrantIds(r)[j] {
          if i > 0 {
            assert EntrantIds(r[1..])[i - 1] != EntrantIds(r[1..])[j - 1];
          }
        }
      } else {
        SubsequenceKeepsDistinctIds(r, es[1..]);
      }
    }
  }

  /** Appending an entrant whose id is new keeps the ids distinct. */
  lemma AppendKeepsDistinctIds(es: seq<Entrant>, e: Entrant)
    requires Distinct(EntrantIds(es)) && !HasId(es, e.id)
    ensures Distinct(EntrantIds(es + [e]))
  {
    var ids := EntrantIds(es + [e]);
    forall i, j | 0 <= i < j < |ids| ensures ids[i] != ids[j] {
      if j < |es| {
        assert ids[i] == EntrantIds(es)[i] && ids[j] == EntrantIds(es)[j];
      } else {
        assert ids[i] == es[i].id;
      }
    }
  }

  /** No roster change of the lobby gives two chosen players the same id, provided a typed name
      gets an id nobody holds yet. */
  lemma RosterChangesKeepIdsDistinct(l: LobbyState, p: Entrant, id: string, freshId: string)
    requires Distinct(EntrantIds(l.selected))
    ensures Distinct(EntrantIds(ToggleSelect(l, p).selected))
    ensures Distinct(EntrantIds(RemoveSelected(l, id).selected))
    ensures !HasId(l.selected, freshId) ==> Distinct(EntrantIds(AddManual(l, freshId).selected))
  {
    ToggleKeepsIdsDistinct(l, p);
    SubsequenceKeepsDistinctIds(RemoveSelected(l, id).selected, l.selected);
    if !HasId(l.selected, freshId) {
      AddManualKeepsIdsDistinct(l, freshId);
    }
  }

  lemma ToggleKeepsIdsDistinct(l: LobbyState, p: Entrant)
    requires Distinct(EntrantIds(l.selected))
    ensures Distinct(EntrantIds(ToggleSelect(l, p).selected))
  {
    if HasId(l.selected, p.id) {
      SubsequenceKeepsDistinctIds(ToggleSelect(l, p).selected, l.selected);
    } else {
      AppendKeepsDistinctIds(l.selected, p);
    }
  }

  lemma AddManualKeepsIdsDistinct(l: LobbyState, freshId: string)
    requires Distinct(EntrantIds(l.selected)) && !HasId(l.selected, freshId)
    ensures Distinct(EntrantIds(AddManual(l, freshId).selected))
  {
    var r := AddManual(l, freshId);
    if r.selected != l.selected {
      AppendKeepsDistinctIds(l.selected, Entrant(freshId, Trim(l.manualName)));
    }
  }

  /** The lobby never offers more liars than the roster allows: each roster change keeps a request
      that fits within the maximum. */
  lemma RosterChangesKeepLiarsInRange(l: LobbyState, p: Entrant, id: string, freshId: string)
    requires 1 <= l.liarsCount <= MaxLiars(|l.selected|)
    ensures var r := ToggleSelect(l, p); 1 <= r.liarsCount <= MaxLiars(|r.selected|)
    ensures var r := RemoveSelected(l, id); 1 <= r.liarsCount <= MaxLiars(|r.selected|)
    ensures var r := AddManual(l, freshId); 1 <= r.liarsCount <= MaxLiars(|r.selected|)
  {
  }

  // ----- The picture area of a roster tile -----

  /** Which of the two elements of a roster tile's picture area is visible. */
  datatype TilePicture = TilePicture(photoVisible: bool, initialsVisible: bool)

  /** The picture area as the lobby renders it: the photo element exists whenever the preset has
      an image path and is hidden once it fails to load, but the initials are rendered only for a
      preset without an image path. */
  function PresetPictureAsWritten(p: Preset, loadFailed: bool): (t: TilePicture)
    ensures t.photoVisible <==> Present(p.image) && !loadFailed
    ensures t.initialsVisible <==> !Present(p.image)
  {
    TilePicture(Present(p.image) && !loadFailed, !Present(p.image))
  }

  /** A roster photo that fails to load leaves its tile with neither photo nor initials. */
  lemma BrokenPhotoShowsNothing()
    ensures var t := PresetPictureAsWritten(Presets[0], true); !t.photoVisible && !t.initialsVisible
  {
  }

  /** The picture area as the error handler intends it: hiding a photo that failed to load lets
      the initials show, so exactly one of the two is visible. */
  function PresetPicture(p: Preset, loadFailed: bool): (t: TilePicture)
    ensures t.photoVisible <==> Present(p.image) && !loadFailed
    ensures t.initialsVisible <==> !t.photoVisible
    ensures t.initialsVisible <==> !Present(p.image) || loadFailed
  {
    var photo := Present(p.image) && !loadFailed;
    TilePicture(photo, !photo)
  }

  /** The intended picture area agrees with the rendered one whenever the photo loads. */
  lemma PresetPictureAgreesWhenLoaded(p: Preset)
    ensures PresetPicture(p, false) == PresetPictureAsWritten(p, false)
  {
  }
}

=== FILE: outcome.dfy ===
/** The decisions of the outcome screen (src/components/Outcome.tsx): which message to show,
    whose name to show as eliminated, and which of the two buttons to offer. */
module OutcomeScreen {
  import opened Types

  /** The four result messages, in the order the screen tests for them. */
  datatype Message = TieNoElimination | LastLiarRemoved | LiarRemoved | LiarNotRemoved

  function MessageFor(tied: bool, liarFound: bool, remainingLiars: int): (m: Message)
    ensures tied ==> m == TieNoElimination
    ensures !tied && liarFound ==>
      && (m == LastLiarRemoved <==> remainingLiars == 0)
      && (m == LiarRemoved <==> remainingLiars != 0)
    ensures !tied && !liarFound ==> m == LiarNotRemoved
  {
    if tied then TieNoElimination
    else if liarFound then (if remainingLiars == 0 then LastLiarRemoved else LiarRemoved)
    else LiarNotRemoved
  }

  /** `showFinish`: the finish button appears only when the last liar was just voted out. */
  function ShowFinish(tied: bool, liarFound: bool, remainingLiars: int): (show: bool)
    ensures show <==> MessageFor(tied, liarFound, remainingLiars) == LastLiarRemoved
    ensures show ==> remainingLiars == 0
  {
    !tied && liarFound && remainingLiars == 0
  }

  /** The one button the screen offers. */
  datatype Button = FinishGame | NextRound

  function ButtonFor(tied: bool, liarFound: bool, remainingLiars: int): (b: Button)
    ensures b == FinishGame <==> ShowFinish(tied, liarFound, remainingLiars)
    ensures b == NextRound <==> !ShowFinish(tied, liarFound, remainingLiars)
  {
    if ShowFinish(tied, liarFound, remainingLiars) then FinishGame else NextRound
  }

  /** The first player with that id, if any (JavaScript's `find`). */
  function FindById(players: seq<Player>, id: Option<string>): (r: Option<Player>)
    ensures r.None? <==> forall i :: 0 <= i < |players| ==> Some(players[i].id) != id
    ensures r.Some? ==> exists i :: 0 <= i < |players| && players[i] == r.value && Some(players[i].id) == id
                                    && forall j :: 0 <= j < i ==> Some(players[j].id) != id
  {
    if players == [] then None
    else if Some(players[0].id) == id then Some(players[0])
    else
      var r := FindById(players[1..], id);
      FindByIdStep(players, id, r);
      r
  }

  /** A hit in the tail of `players` is a first hit in `players` when the head does not match. */
  lemma FindByIdStep(players: seq<Player>, id: Option<string>, r: Option<Player>)
    requires players != [] && Some(players[0].id) != id
    requires r.Some? ==> exists i :: 0 <= i < |players[1..]| && players[1..][i] == r.value && Some(players[1..][i].id) == id
                                    && forall j :: 0 <= j < i ==> Some(players[1..][j].id) != id
    ensures r.Some? ==> exists i :: 0 <= i < |players| && players[i] == r.value && Some(players[i].id) == id
                                    && forall j :: 0 <= j < i ==> Some(players[j].id) != id
  {
    if r.Some? {
      var i :| 0 <= i < |players[1..]| && players[1..][i] == r.value && Some(players[1..][i].id) == id
               && forall j :: 0 <= j < i ==> Some(players[1..][j].id) != id;
      assert players[i + 1] == r.value;
      forall j | 0 <= j < i + 1 ensures Some(players[j].id) != id {
        if j > 0 { assert players[j] == players[1..][j - 1]; }
      }
    }
  }

  /** What the "eliminated" line shows: a name, or a dash. */
  datatype Label = Named(name: string) | Dash

  /** A tie shows a dash; otherwise the name of the first player with the eliminated id, or a dash
      when no player has it. */
  function EliminatedLabel(players: seq<Player>, eliminatedId: Option<string>, tied: bool): (l: Label)
    ensures tied ==> l == Dash
    ensures !tied ==> (l == Dash <==> forall i :: 0 <= i < |players| ==> Some(players[i].id) != eliminatedId)
    ensures l.Named? ==> exists i :: 0 <= i < |players| && Some(players[i].id) == eliminatedId && players[i].name == l.name
  {
    if tied then Dash
    else match FindById(players, eliminatedId)
      case Some(p) => Named(p.name)
      case None => Dash
  }
}

=== FILE: player_tile.dfy ===
/** A roster tile (src/components/PlayerTile.tsx): the initials it falls back to and whether it
    shows the player's photo. */
module PlayerTileView {
  import opened Util
  import opened Types
  import opened Text

  /** The upper-cased first character, or nothing for an empty token. */
  function FirstUpper(token: string): (r: string)
    ensures token == [] ==> r == []
    ensures token != [] ==> r == [UpperChar(token[0])]
  {
    if token == [] then [] else [UpperChar(token[0])]
  }

  /** The tile's initials: the upper-cased first characters of the first two tokens of the
      name split on runs of white space. A leading blank yields an empty first token, which
      uses up a slot. */
  function Initials(name: string): (r: string)
    ensures |r| <= 2
    ensures forall i :: 0 <= i < |r| ==> !IsLowerAscii(r[i])
    ensures name == [] ==> r == []
    ensures name != [] && !IsSpace(name[0]) ==> |r| >= 1 && r[0] == UpperChar(name[0])
    ensures name != [] && IsSpace(name[0]) ==> |r| <= 1
  {
    var tokens := SplitWhitespace(name);
    SplitWhitespaceFirst(name, []);
    var firsts := seq(|tokens|, i requires 0 <= i < |tokens| => FirstUpper(tokens[i]));
    var kept := firsts[..Min(2, |firsts|)];
    assert |kept| == 1 ==> Join(kept) == kept[0];
    assert |kept| == 2 ==> Join(kept) == kept[0] + kept[1] by {
      if |kept| == 2 { assert Join(kept[1..]) == kept[1] + Join(kept[2..]); }
    }
    Join(kept)
  }

  /** A single word free of white space gives its own upper-cased first letter. */
  lemma OneWordInitials(w: string)
    requires w != [] && forall i :: 0 <= i < |w| ==> !IsSpace(w[i])
    ensures Initials(w) == [UpperChar(w[0])]
  {
    SplitWhitespaceWord(w, [], []);
    assert w + [] == w && [] + w == w;
    assert SplitWhitespace(w) == [w];
  }

  /** Two blank-free words give the upper-cased first letter of each; whatever follows a blank
      after the second word is ignored. */
  lemma TwoWordInitials(w1: string, w2: string, rest: string)
    requires w1 != [] && w2 != []
    requires forall i :: 0 <= i < |w1| ==> !IsSpace(w1[i])
    requires forall i :: 0 <= i < |w2| ==> !IsSpace(w2[i])
    requires rest == [] || IsSpace(rest[0])
    ensures Initials(w1 + " " + w2 + rest) == [UpperChar(w1[0]), UpperChar(w2[0])]
  {
    TwoWordTokens(w1, w2, rest);
    InitialsOfTwoTokens(w1 + " " + w2 + rest);
  }

  /** The first two tokens of two blank-free words followed by a blank are the two words. */
  lemma TwoWordTokens(w1: string, w2: string, rest: string)
    requires w1 != [] && w2 != []
    requires forall i :: 0 <= i < |w1| ==> !IsSpace(w1[i])
    requires forall i :: 0 <= i < |w2| ==> !IsSpace(w2[i])
    requires rest == [] || IsSpace(rest[0])
    ensures var tokens := SplitWhitespace(w1 + " " + w2 + rest);
            |tokens| >= 2 && tokens[0] == w1 && tokens[1] == w2
  {
    var second := w2 + rest;
    var tail := " " + second;
    assert w1 + " " + w2 + rest == w1 + tail;
    WordThenBlank(w1, tail);
    SkipOneBlank(second);
    WordThenBlank(w2, rest);
  }

  /** Trimming a single blank in front of a non-blank leaves what follows it. */
  lemma SkipOneBlank(x: string)
    requires x != [] && !IsSpace(x[0])
    ensures TrimStart(" " + x) == x
  {
    assert (" " + x)[1..] == x;
  }

  /** A blank-free word followed by a blank (or by nothing) is the first token. */
  lemma WordThenBlank(w: string, rest: string)
    requires forall i :: 0 <= i < |w| ==> !IsSpace(w[i])
    requires rest == [] || IsSpace(rest[0])
    ensures SplitWhitespace(w + rest)[0] == w
    ensures rest != [] ==> SplitWhitespace(w + rest) == [w] + SplitWhitespaceFrom(TrimStart(rest), [])
  {
    SplitWhitespaceWord(w, rest, []);
    assert [] + w == w;
  }

  /** With at least two tokens, the initials come from the first two, an empty one giving nothing. */
  lemma InitialsOfTwoTokens(name: string)
    requires |SplitWhitespace(name)| >= 2
    ensures var tokens := SplitWhitespace(name); Initials(name) == FirstUpper(tokens[0]) + FirstUpper(tokens[1])
  {
  }

  /** A name opening with one blank and then a word splits into an empty token and the word. */
  lemma LeadingBlankTokens(w: string, rest: string)
    requires w != [] && forall i :: 0 <= i < |w| ==> !IsSpace(w[i])
    requires rest == [] || IsSpace(rest[0])
    ensures var tokens := SplitWhitespace(" " + w + rest);
            |tokens| >= 2 && tokens[0] == [] && tokens[1] == w
  {
    var x := w + rest;
    assert " " + w + rest == " " + x;
    assert x[0] == w[0];
    BlankThenWord(x);
    WordThenBlank(w, rest);
  }

  /** One blank in front of a non-blank adds an empty first token. */
  lemma BlankThenWord(x: string)
    requires x != [] && !IsSpace(x[0])
    ensures SplitWhitespace(" " + x) == [[]] + SplitWhitespace(x)
  {
    SplitWhitespaceAtBlank(" " + x, []);
    SkipOneBlank(x);
  }

  /** A leading blank yields an empty first token, so only the first word's initial is left. */
  lemma LeadingBlankInitials(w: string, rest: string)
    requires w != [] && forall i :: 0 <= i < |w| ==> !IsSpace(w[i])
    requires rest == [] || IsSpace(rest[0])
    ensures Initials(" " + w + rest) == [UpperChar(w[0])]
  {
    LeadingBlankTokens(w, rest);
    InitialsOfTwoTokens(" " + w + rest);
    assert FirstUpper([]) + FirstUpper(w) == [UpperChar(w[0])];
  }

  /** What the picture area of a tile holds. */
  datatype Face = Photo(url: string) | Fallback(text: string)

  /** The photo while the player has an image path that has not failed to load; otherwise the
      initials. */
  function TileFace(name: string, image: Option<string>, imgError: bool): (f: Face)
    ensures f.Photo? <==> !imgError && Present(image)
    ensures f.Photo? ==> f.url == image.value
    ensures f.Fallback? ==> f.text == Initials(name)
  {
    if !imgError && Present(image) then Photo(image.value) else Fallback(Initials(name))
  }
}

=== FILE: reveal.dfy ===
/** The decisions of the reveal card (src/components/Reveal.tsx): the singular category label,
    whether the current player is a liar, and whether the secret's photo is shown. */
module RevealScreen {
  import opened Types
  import opened Text

  /** `formatCategorySingular`: the two known categories have fixed labels; any other category is
      lower-cased and loses one trailing `s`. */
  function FormatCategorySingular(category: string): (r: string)
    ensures Lower(category) == "peliculas" ==> r == "película"
    ensures Lower(category) == "famosos" ==> r == "famoso"
    ensures Lower(category) != "peliculas" && Lower(category) != "famosos" ==>
      && (r == Lower(category) || r + "s" == Lower(category))
      && (forall i :: 0 <= i < |r| ==> !IsUpperAscii(r[i]))
      && (Lower(category) != [] && Lower(category)[|category| - 1] == 's' ==> r + "s" == Lower(category))
      && (Lower(category) == [] || Lower(category)[|category| - 1] != 's' ==> r == Lower(category))
  {
    var lower := Lower(category);
    if lower == "peliculas" then "película"
    else if lower == "famosos" then "famoso"
    else if lower != [] && lower[|lower| - 1] == 's' then lower[..|lower| - 1]
    else lower
  }

  /** Categories that differ only in letter case get the same label. */
  lemma SingularIgnoresCase(c1: string, c2: string)
    requires |c1| == |c2|
    requires forall i :: 0 <= i < |c1| ==> LowerChar(c1[i]) == LowerChar(c2[i])
    ensures FormatCategorySingular(c1) == FormatCategorySingular(c2)
  {
    assert Lower(c1) == Lower(c2);
  }

  /** Whether the player holding the device is one of the liars. The card reads the player at
      `currentIndex`, so the index must address a player. */
  function IsLiar(players: seq<Player>, currentIndex: int, liarIds: seq<string>): (liar: bool)
    requires 0 <= currentIndex < |players|
    ensures liar <==> exists j :: 0 <= j < |liarIds| && liarIds[j] == players[currentIndex].id
    ensures liarIds == [] ==> !liar
  {
    players[currentIndex].id in liarIds
  }

  /** The secret's photo is rendered only on a revealed normal's card, for the famous-people
      category, with an image URL, while it has not failed to load. */
  function ShowsSecretImage(isLiar: bool, visible: bool, category: string, imageUrl: Option<string>, showImg: bool): (shown: bool)
    ensures shown ==> visible && !isLiar && Present(imageUrl) && showImg
    ensures shown ==> FormatCategorySingular(category) == "famoso"
    ensures Lower(category) != "famosos" ==> !shown
    ensures visible && !isLiar && Lower(category) == "famosos" && Present(imageUrl) && showImg ==> shown
  {
    visible && !isLiar && Lower(category) == "famosos" && Present(imageUrl) && showImg
  }
}

=== FILE: tally.dfy ===
/** The vote count that closes a round (the tally inside `submitVote`, src/App.tsx):
    count the ballots in a map that remembers insertion order, scan it for the highest count,
    and call the round tied unless exactly one target holds that count. */
module Tally {
  import opened Util
  import opened Types

  /** The targets the counting loop sees, in player order: every `voteForId` that is truthy. */
  function Ballots(players: seq<Player>): (b: seq<string>)
    ensures |b| <= |players|
    ensures forall k :: k in b ==> k != ""
  {
    if players == [] then []
    else (if Present(players[0].voteForId) then [players[0].voteForId.value] else []) + Ballots(players[1..])
  }

  /** The ballots are exactly the non-empty votes: a target is among them iff some player voted
      for it, there is one ballot per player iff everyone voted, and then the ballots are the
      votes in player order. */
  lemma {:induction false} BallotsContents(players: seq<Player>)
    ensures var b := Ballots(players);
      && (forall k :: k in b <==> exists i :: 0 <= i < |players| && players[i].voteForId == Some(k) && k != "")
      && (|b| == |players| <==> forall i :: 0 <= i < |players| ==> Present(players[i].voteForId))
      && (|b| == |players| ==> forall i :: 0 <= i < |players| ==> b[i] == players[i].voteForId.value)
  {
    if players != [] {
      BallotsContents(players[1..]);
      BallotsStep(players, Ballots(players[1..]));
    }
  }

  /** One step of `BallotsContents`: the head's ballot, if any, goes in front of the tail's. */
  lemma BallotsStep(players: seq<Player>, rest: seq<string>)
    requires players != []
    requires |rest| <= |players[1..]|
    requires forall k :: k in rest <==> exists i :: 0 <= i < |players[1..]| && players[1..][i].voteForId == Some(k) && k != ""
    requires |rest| == |players[1..]| <==> forall i :: 0 <= i < |players[1..]| ==> Present(players[1..][i].voteForId)
    requires |rest| == |players[1..]| ==> forall i :: 0 <= i < |players[1..]| ==> rest[i] == players[1..][i].voteForId.value
    ensures var b := (if Present(players[0].voteForId) then [players[0].voteForId.value] else []) + rest;
      && (forall k :: k in b <==> exists i :: 0 <= i < |players| && players[i].voteForId == Some(k) && k != "")
      && (|b| == |players| <==> forall i :: 0 <= i < |players| ==> Present(players[i].voteForId))
      && (|b| == |players| ==> forall i :: 0 <= i < |players| ==> b[i] == players[i].voteForId.value)
  {
    var b := (if Present(players[0].voteForId) then [players[0].voteForId.value] else []) + rest;
    forall k ensures k in b <==> exists i :: 0 <= i < |players| && players[i].voteForId == Some(k) && k != "" {
      if exists i :: 0 <= i < |players| && players[i].voteForId == Some(k) && k != "" {
        var i :| 0 <= i < |players| && players[i].voteForId == Some(k) && k != "";
        if i > 0 {
          assert players[1..][i - 1] == players[i];
        }
      }
      if k in rest {
        var i :| 0 <= i < |players[1..]| && players[1..][i].voteForId == Some(k) && k != "";
        assert players[i + 1] == players[1..][i];
      }
    }
    if forall i :: 0 <= i < |players| ==> Present(players[i].voteForId) {
      assert forall i :: 0 <= i < |players[1..]| ==> players[1..][i] == players[i + 1];
    }
    if |b| == |players| {
      assert Present(players[0].voteForId);
    }
  }

  /** The ballots of a concatenation are the concatenated ballots. */
  lemma {:induction false} BallotsAppend(a: seq<Player>, b: seq<Player>)
    ensures Ballots(a + b) == Ballots(a) + Ballots(b)
  {
    if a == [] {
      assert a + b == b;
    } else {
      var h := if Present(a[0].voteForId) then [a[0].voteForId.value] else [];
      assert (a + b)[0] == a[0];
      assert (a + b)[1..] == a[1..] + b;
      assert Ballots(a + b) == h + Ballots(a[1..] + b);
      BallotsAppend(a[1..], b);
      assert Ballots(a) == h + Ballots(a[1..]);
    }
  }

  /** The ballots depend only on which players there are, not on their order. */
  lemma {:induction false} BallotsPermutation(p1: seq<Player>, p2: seq<Player>)
    requires multiset(p1) == multiset(p2)
    ensures multiset(Ballots(p1)) == multiset(Ballots(p2))
    decreases |p1|
  {
    if p1 == [] {
      assert p2 == [];
    } else {
      var x := p1[0];
      assert x in multiset(p2);
      var j :| 0 <= j < |p2| && p2[j] == x;
      var rest := p2[..j] + p2[j + 1..];
      assert p2 == p2[..j] + [x] + p2[j + 1..];
      assert p1 == [x] + p1[1..];
      calc {
        multiset(p2);
        multiset(p2[..j] + [x] + p2[j + 1..]);
        multiset(p2[..j]) + multiset{x} + multiset(p2[j + 1..]);
        multiset(rest) + multiset{x};
      }
      assert multiset(p1) == multiset(p1[1..]) + multiset{x};
      assert multiset(p1[1..]) == multiset(p1) - multiset{x};
      assert multiset(rest) == multiset(p2) - multiset{x};
      BallotsPermutation(p1[1..], rest);
      BallotsAppend(p2[..j] + [x], p2[j + 1..]);
      BallotsAppend(p2[..j], [x]);
      BallotsAppend(p2[..j], p2[j + 1..]);
      BallotsAppend([x], p1[1..]);
    }
  }

  /** The `counts` map: keys in first-insertion order, and each key's count. */
  datatype Counts = Counts(keys: seq<string>, count: map<string, nat>)

  function Bump(c: Counts, k: string): Counts {
    if k in c.count then Counts(c.keys, c.count[k := c.count[k] + 1])
    else Counts(c.keys + [k], c.count[k := 1])
  }

  /** Counting the ballots one by one into a map:
      every ballot becomes a key once, and each key counts its occurrences. */
  function CountBallots(b: seq<string>): (c: Counts)
    ensures Distinct(c.keys)
    ensures forall k :: k in c.keys <==> k in b
    ensures forall k :: k in c.count <==> k in b
    ensures forall k :: k in c.count ==> c.count[k] == multiset(b)[k]
  {
    if b == [] then Counts([], map[])
    else
      var front := b[..|b| - 1];
      var last := b[|b| - 1];
      assert b == front + [last];
      Bump(CountBallots(front), last)
  }

  /** The running `(topVotes, topIds)` of the `counts.forEach` scan. */
  datatype Top = Top(votes: int, ids: seq<string>)

  /** The scan over the keys in insertion order: a larger count restarts `topIds`, an equal count
      appends to it. It ends with the maximum count and exactly the keys that reach it. */
  function ScanTop(keys: seq<string>, count: map<string, nat>): (t: Top)
    requires forall k :: k in keys ==> k in count
    ensures keys == [] ==> t == Top(-1, [])
    ensures keys != [] ==> exists i :: 0 <= i < |keys| && count[keys[i]] == t.votes
    ensures forall k :: k in keys ==> count[k] <= t.votes
    ensures forall k :: k in t.ids <==> k in keys && count[k] == t.votes
    ensures Distinct(keys) ==> Distinct(t.ids)
  {
    if keys == [] then Top(-1, [])
    else
      var front := keys[..|keys| - 1];
      var k := keys[|keys| - 1];
      assert keys == front + [k];
      var t := ScanTop(front, count);
      if count[k] > t.votes then Top(count[k], [k])
      else if count[k] == t.votes then Top(t.votes, t.ids + [k])
      else t
  }

  /** `k` received strictly more ballots than any other target. */
  ghost predicate IsUniqueTop(b: seq<string>, k: string) {
    k in b && forall j :: j != k ==> multiset(b)[j] < multiset(b)[k]
  }

  /** The outcome of the count. */
  datatype Verdict = Verdict(tied: bool, eliminatedId: Option<string>)

  /** A tie unless exactly one target holds the top count and that count is positive; the
      eliminated id is that single target.
      The round is tied exactly when no target beats every other one, and otherwise
      the eliminated id is that target. */
  function TallyVotes(b: seq<string>): (v: Verdict)
    ensures IsVerdictOf(b, v)
  {
    var c := CountBallots(b);
    var t := ScanTop(c.keys, c.count);
    var tied := |t.ids| != 1 || t.votes <= 0;
    ScanIsTop(b);
    UniqueTopIsScanned(b, t);
    Verdict(tied, if tied then None else Some(t.ids[0]))
  }

  /** `v` is the right verdict for the ballots `b`: tied exactly when no target got more
      ballots than every other one, and otherwise eliminating that target. */
  ghost predicate IsVerdictOf(b: seq<string>, v: Verdict) {
    && (v.tied <==> v.eliminatedId.None?)
    && (forall k :: v.eliminatedId == Some(k) <==> IsUniqueTop(b, k))
    && (v.tied <==> !exists k :: IsUniqueTop(b, k))
  }

  /** What the scan leaves behind, stated over the ballots alone: `t.votes` is the highest
      number of ballots any target got, and `t.ids` lists each target with that many once. */
  ghost predicate IsTop(b: seq<string>, t: Top) {
    && Distinct(t.ids)
    && (forall k :: k in t.ids <==> k in b && multiset(b)[k] == t.votes)
    && (forall k :: k in b ==> multiset(b)[k] <= t.votes)
    && (b != [] ==> exists k :: k in b && multiset(b)[k] == t.votes)
  }

  lemma ScanIsTop(b: seq<string>)
    ensures IsTop(b, ScanTop(CountBallots(b).keys, CountBallots(b).count))
  {
    var c := CountBallots(b);
    var t := ScanTop(c.keys, c.count);
    if b != [] {
      assert b[0] in c.keys;
      var i :| 0 <= i < |c.keys| && c.count[c.keys[i]] == t.votes;
      assert c.keys[i] in b;
    }
  }

  lemma UniqueTopIsScanned(b: seq<string>, t: Top)
    requires IsTop(b, t)
    ensures forall k :: (|t.ids| == 1 && t.votes > 0 && t.ids[0] == k) <==> IsUniqueTop(b, k)
  {
    forall k ensures (|t.ids| == 1 && t.votes > 0 && t.ids[0] == k) <==> IsUniqueTop(b, k) {
      if |t.ids| == 1 && t.votes > 0 && t.ids[0] == k {
        ScannedIsUniqueTop(b, t);
      }
      if IsUniqueTop(b, k) {
        UniqueTopIsScannedAlone(b, t, k);
      }
    }
  }

  lemma ScannedIsUniqueTop(b: seq<string>, t: Top)
    requires IsTop(b, t)
    requires |t.ids| == 1 && t.votes > 0
    ensures IsUniqueTop(b, t.ids[0])
  {
    var k := t.ids[0];
    assert t.ids == [k];
    assert k in t.ids;
    forall j | j != k ensures multiset(b)[j] < multiset(b)[k] {
      if j in b {
        assert j !in t.ids;
      }
    }
  }

  lemma UniqueTopIsScannedAlone(b: seq<string>, t: Top, k: string)
    requires IsTop(b, t)
    requires IsUniqueTop(b, k)
    ensures |t.ids| == 1 && t.votes > 0 && t.ids[0] == k
  {
    var m :| m in b && multiset(b)[m] == t.votes;
    assert multiset(b)[k] <= t.votes;
    assert m == k;
    assert k in t.ids;
    forall n | 0 <= n < |t.ids| ensures t.ids[n] == k {
      assert t.ids[n] in t.ids;
    }
    DistinctConstant(t.ids, k);
  }

  /** The `topVotes <= 0` half of the tie test never decides anything: a target that holds the
      top count alone has at least one ballot, so the round is tied exactly when the top count is
      not held by exactly one target. */
  lemma TopVotesGuardRedundant(b: seq<string>)
    ensures var t := ScanTop(CountBallots(b).keys, CountBallots(b).count);
            |t.ids| == 1 ==> t.votes >= 1
  {
    ScanIsTop(b);
    var t := ScanTop(CountBallots(b).keys, CountBallots(b).count);
    if |t.ids| == 1 {
      assert t.ids[0] in t.ids;
    }
  }

  /** Shuffling the ballots cannot change the verdict. */
  lemma TallyOrderIndependent(b1: seq<string>, b2: seq<string>)
    requires multiset(b1) == multiset(b2)
    ensures TallyVotes(b1) == TallyVotes(b2)
  {
    var v1, v2 := TallyVotes(b1), TallyVotes(b2);
    forall k ensures IsUniqueTop(b1, k) <==> IsUniqueTop(b2, k) {
      assert k in b1 <==> k in multiset(b1);
      assert k in b2 <==> k in multiset(b2);
    }
    if v1.eliminatedId.Some? {
      assert IsUniqueTop(b2, v1.eliminatedId.value);
    }
  }

  /** The verdict of a vote does not depend on the order of the players. */
  lemma TallyPlayerOrderIndependent(p1: seq<Player>, p2: seq<Player>)
    requires multiset(p1) == multiset(p2)
    ensures TallyVotes(Ballots(p1)) == TallyVotes(Ballots(p2))
  {
    BallotsPermutation(p1, p2);
    TallyOrderIndependent(Ballots(p1), Ballots(p2));
  }
}

=== FILE: text.dfy ===
/** The JavaScript string built-ins the components use, over ASCII:
    `toLowerCase`, `toUpperCase`, `trim`, `split(' ')` and `split(/\s+/)`. */
module Text {

  /** The characters `\s` and `trim` treat as white space, restricted to ASCII. */
  predicate IsSpace(c: char) {
    c == ' ' || c == '\t' || c == '\n' || c == '\r' || c == '\U{B}' || c == '\U{C}'
  }

  predicate IsUpperAscii(c: char) { 'A' <= c <= 'Z' }

  predicate IsLowerAscii(c: char) { 'a' <= c <= 'z' }

  function LowerChar(c: char): (r: char)
    ensures !IsUpperAscii(r)
    ensures !IsUpperAscii(c) ==> r == c
    ensures IsUpperAscii(c) ==> r as int == c as int + 32
    ensures IsUpperAscii(c) <==> IsLowerAscii(r) && r != c
  {
    if IsUpperAscii(c) then (c as int + 32) as char else c
  }

  function UpperChar(c: char): (r: char)
    ensures !IsLowerAscii(r)
    ensures !IsLowerAscii(c) ==> r == c
    ensures IsLowerAscii(c) ==> r as int == c as int - 32
    ensures IsLowerAscii(c) <==> IsUpperAscii(r) && r != c
  {
    if IsLowerAscii(c) then (c as int - 32) as char else c
  }

  /** JavaScript's `toLowerCase` over ASCII: every letter A-Z lower-cased, nothing else changed. */
  function Lower(s: string): (r: string)
    ensures |r| == |s|
    ensures forall i :: 0 <= i < |s| ==> r[i] == LowerChar(s[i])
  {
    seq(|s|, i requires 0 <= i < |s| => LowerChar(s[i]))
  }

  /** JavaScript's `toUpperCase` over ASCII: every letter a-z upper-cased, nothing else changed. */
  function Upper(s: string): (r: string)
    ensures |r| == |s|
    ensures forall i :: 0 <= i < |s| ==> r[i] == UpperChar(s[i])
  {
    seq(|s|, i requires 0 <= i < |s| => UpperChar(s[i]))
  }

  /** Lower-casing twice is lower-casing once, and upper-casing first changes nothing a later
      lower-casing can see: the two agree on what "equal ignoring case" means. */
  lemma CaseRoundTrip(s: string)
    ensures Lower(Lower(s)) == Lower(s)
    ensures Lower(Upper(s)) == Lower(s)
  {
    forall i | 0 <= i < |s| ensures LowerChar(UpperChar(s[i])) == LowerChar(s[i]) {
      if IsLowerAscii(s[i]) {
        assert IsUpperAscii(UpperChar(s[i]));
      }
    }
  }

  /** Leading white space removed: the result is a suffix of `s` that does not start with white space,
      and everything dropped was white space. */
  function TrimStart(s: string): (r: string)
    ensures |r| <= |s| && r == s[|s| - |r|..]
    ensures r != [] ==> !IsSpace(r[0])
    ensures forall i :: 0 <= i < |s| - |r| ==> IsSpace(s[i])
  {
    if s != [] && IsSpace(s[0]) then TrimStart(s[1..]) else s
  }

  /** Trailing white space removed: the result is a prefix of `s` that does not end with white space,
      and everything dropped was white space. */
  function TrimEnd(s: string): (r: string)
    ensures |r| <= |s| && r == s[..|r|]
    ensures r != [] ==> !IsSpace(r[|r| - 1])
    ensures forall i :: |r| <= i < |s| ==> IsSpace(s[i])
  {
    if s != [] && IsSpace(s[|s| - 1]) then TrimEnd(s[..|s| - 1]) else s
  }

  /** JavaScript's `trim`: the slice `s[a..b]` left after dropping the white space at both ends. */
  function Trim(s: string): (r: string)
    ensures exists a, b :: 0 <= a <= b <= |s| && r == s[a..b] && TrimmedEnds(s, a, b)
    ensures r != [] ==> !IsSpace(r[0]) && !IsSpace(r[|r| - 1])
    ensures r == [] <==> forall i :: 0 <= i < |s| ==> IsSpace(s[i])
  {
    var t := TrimStart(s);
    var r := TrimEnd(t);
    TrimSlice(s, t, r);
    r
  }

  /** Cutting white space off the front of `s` (giving `t`) and then off the back of `t` (giving
      `r`) leaves a slice of `s` with only white space on either side. */
  lemma TrimSlice(s: string, t: string, r: string)
    requires |t| <= |s| && t == s[|s| - |t|..] && forall i :: 0 <= i < |s| - |t| ==> IsSpace(s[i])
    requires |r| <= |t| && r == t[..|r|] && forall i :: |r| <= i < |t| ==> IsSpace(t[i])
    ensures r == s[|s| - |t|..|s| - |t| + |r|]
    ensures TrimmedEnds(s, |s| - |t|, |s| - |t| + |r|)
  {
    var a, b := |s| - |t|, |s| - |t| + |r|;
    forall i | b <= i < |s| ensures IsSpace(s[i]) {
      assert s[i] == t[i - a];
    }
  }

  /** Everything before `a` and from `b` on is white space. */
  predicate TrimmedEnds(s: string, a: int, b: int)
    requires 0 <= a <= b <= |s|
  {
    (forall i :: 0 <= i < a ==> IsSpace(s[i])) && (forall i :: b <= i < |s| ==> IsSpace(s[i]))
  }

  /** JavaScript's `split` on a one-character separator, with `cur` the token read so far.
      Like JavaScript, the empty string splits into one empty token and adjacent separators
      produce empty tokens. */
  function SplitOnFrom(s: string, sep: char, cur: string): (r: seq<string>)
    ensures |r| >= 1
    ensures sep !in cur ==> forall k :: 0 <= k < |r| ==> sep !in r[k]
    decreases |s|
  {
    if s == [] then [cur]
    else if s[0] == sep then [cur] + SplitOnFrom(s[1..], sep, [])
    else SplitOnFrom(s[1..], sep, cur + [s[0]])
  }

  function SplitOn(s: string, sep: char): (r: seq<string>)
    ensures |r| >= 1
  {
    SplitOnFrom(s, sep, [])
  }

  /** JavaScript's `split` on the pattern of white-space runs, with `cur` the token read so far: every maximal run of white space
      separates two tokens, so leading or trailing white space yields an empty first or last token. */
  function SplitWhitespaceFrom(s: string, cur: string): (r: seq<string>)
    ensures |r| >= 1
    ensures (forall i :: 0 <= i < |cur| ==> !IsSpace(cur[i])) ==>
              forall k, i :: 0 <= k < |r| && 0 <= i < |r[k]| ==> !IsSpace(r[k][i])
    decreases |s|
  {
    if s == [] then [cur]
    else if IsSpace(s[0]) then [cur] + SplitWhitespaceFrom(TrimStart(s), [])
    else SplitWhitespaceFrom(s[1..], cur + [s[0]])
  }

  function SplitWhitespace(s: string): (r: seq<string>)
    ensures |r| >= 1
  {
    SplitWhitespaceFrom(s, [])
  }

  /** `s` with every maximal run of white space replaced by a single blank. */
  function Collapse(s: string): (r: string)
    ensures |r| <= |s|
    ensures forall i :: 0 <= i < |r| ==> (IsSpace(r[i]) ==> r[i] == ' ')
    ensures forall i :: 0 <= i < |r| - 1 ==> !(IsSpace(r[i]) && IsSpace(r[i + 1]))
    ensures r != [] ==> (IsSpace(r[0]) <==> IsSpace(s[0]))
    ensures NonSpace(r) == NonSpace(s)
    decreases |s|
  {
    if s == [] then []
    else if IsSpace(s[0]) then
      var rest := Collapse(TrimStart(s));
      assert TrimStart(s) != [] ==> !IsSpace(TrimStart(s)[0]);
      NonSpaceTrimStart(s);
      NonSpaceCons(' ', rest);
      [' '] + rest
    else
      var rest := Collapse(s[1..]);
      NonSpaceCons(s[0], rest);
      [s[0]] + rest
  }

  /** The non-white-space characters of a text with one character in front. */
  lemma NonSpaceCons(c: char, x: string)
    ensures NonSpace([c] + x) == (if IsSpace(c) then [] else [c]) + NonSpace(x)
  {
    assert ([c] + x)[1..] == x;
  }

  /** Splitting on white space cuts exactly at the runs of white space: the tokens joined with
      single blanks are the token being read followed by `s` with each run collapsed to a blank.
      As no token holds white space, this pins down every token. */
  lemma {:induction false} SplitWhitespaceCollapse(s: string, cur: string)
    requires forall i :: 0 <= i < |cur| ==> !IsSpace(cur[i])
    ensures JoinWith(SplitWhitespaceFrom(s, cur), ' ') == cur + Collapse(s)
    decreases |s|
  {
    if s == [] {
      assert cur + s == cur;
    } else if IsSpace(s[0]) {
      SplitWhitespaceCollapse(TrimStart(s), []);
      CollapseBlankStep(s, cur);
    } else {
      var cur' := cur + [s[0]];
      SplitWhitespaceCollapse(s[1..], cur');
      CollapseWordStep(s, cur);
    }
  }

  /** A step of `SplitWhitespaceCollapse` at a run of white space. */
  lemma CollapseBlankStep(s: string, cur: string)
    requires s != [] && IsSpace(s[0])
    requires JoinWith(SplitWhitespaceFrom(TrimStart(s), []), ' ') == [] + Collapse(TrimStart(s))
    ensures JoinWith(SplitWhitespaceFrom(s, cur), ' ') == cur + Collapse(s)
  {
    var t := TrimStart(s);
    assert [] + Collapse(t) == Collapse(t);
    JoinWithCons(cur, SplitWhitespaceFrom(t, []), ' ', Collapse(t));
    SplitWhitespaceAtBlank(s, cur);
    CollapseAtBlank(s);
  }

  lemma SplitWhitespaceAtBlank(s: string, cur: string)
    requires s != [] && IsSpace(s[0])
    ensures SplitWhitespaceFrom(s, cur) == [cur] + SplitWhitespaceFrom(TrimStart(s), [])
  {
  }

  lemma CollapseAtBlank(s: string)
    requires s != [] && IsSpace(s[0])
    ensures Collapse(s) == [' '] + Collapse(TrimStart(s))
  {
  }

  /** A step of `SplitWhitespaceCollapse` at a character that is not white space. */
  lemma CollapseWordStep(s: string, cur: string)
    requires s != [] && !IsSpace(s[0])
    requires JoinWith(SplitWhitespaceFrom(s[1..], cur + [s[0]]), ' ') == cur + [s[0]] + Collapse(s[1..])
    ensures JoinWith(SplitWhitespaceFrom(s, cur), ' ') == cur + Collapse(s)
  {
    SplitWhitespaceAtWord(s, cur);
    CollapseAtWord(s);
    ConcatAssoc(cur, [s[0]], Collapse(s[1..]));
  }

  lemma SplitWhitespaceAtWord(s: string, cur: string)
    requires s != [] && !IsSpace(s[0])
    ensures SplitWhitespaceFrom(s, cur) == SplitWhitespaceFrom(s[1..], cur + [s[0]])
  {
  }

  lemma CollapseAtWord(s: string)
    requires s != [] && !IsSpace(s[0])
    ensures Collapse(s) == [s[0]] + Collapse(s[1..])
  {
  }

  lemma ConcatAssoc(a: string, b: string, c: string)
    ensures a + b + c == a + (b + c)
  {
  }

  /** Joining a part in front of at least one other puts one separator after it. */
  lemma JoinWithCons(first: string, rest: seq<string>, sep: char, joined: string)
    requires rest != [] && JoinWith(rest, sep) == joined
    ensures JoinWith([first] + rest, sep) == first + ([sep] + joined)
  {
    assert ([first] + rest)[0] == first && ([first] + rest)[1..] == rest;
  }


  /** The characters of `s` that are not white space, in order. */
  function NonSpace(s: string): (r: string)
    ensures |r| <= |s|
    ensures forall i :: 0 <= i < |r| ==> !IsSpace(r[i])
    ensures (forall i :: 0 <= i < |s| ==> !IsSpace(s[i])) ==> r == s
  {
    if s == [] then []
    else (if IsSpace(s[0]) then [] else [s[0]]) + NonSpace(s[1..])
  }

  /** Leading white space contributes no characters. */
  lemma {:induction false} NonSpaceTrimStart(s: string)
    ensures NonSpace(TrimStart(s)) == NonSpace(s)
    decreases |s|
  {
    if s != [] && IsSpace(s[0]) {
      NonSpaceTrimStart(s[1..]);
    }
  }

  /** Splitting on white space loses exactly the white space: the tokens glued back together are
      the token being read followed by the non-white-space characters of `s`. */
  lemma {:induction false} SplitWhitespaceJoin(s: string, cur: string)
    ensures Join(SplitWhitespaceFrom(s, cur)) == cur + NonSpace(s)
    decreases |s|
  {
    if s == [] {
      assert Join([cur]) == cur + Join([]);
    } else if IsSpace(s[0]) {
      var t := TrimStart(s);
      var rest := SplitWhitespaceFrom(t, []);
      SplitWhitespaceJoin(t, []);
      NonSpaceTrimStart(s);
      assert ([cur] + rest)[1..] == rest;
      assert [] + NonSpace(t) == NonSpace(t);
    } else {
      SplitWhitespaceJoin(s[1..], cur + [s[0]]);
      assert cur + [s[0]] + NonSpace(s[1..]) == cur + NonSpace(s);
    }
  }

  /** Only the first and the last token can be empty: a run of white space never yields an empty
      token between two others. */
  lemma {:induction false} SplitWhitespaceInner(s: string, cur: string)
    ensures var r := SplitWhitespaceFrom(s, cur); forall k :: 1 <= k < |r| - 1 ==> r[k] != []
    decreases |s|
  {
    if s != [] && IsSpace(s[0]) {
      var t := TrimStart(s);
      var rest := SplitWhitespaceFrom(t, []);
      SplitWhitespaceInner(t, []);
      if t != [] {
        SplitWhitespaceFirst(t, []);
      }
      var r := [cur] + rest;
      assert forall k :: 1 <= k < |r| ==> r[k] == rest[k - 1];
    } else if s != [] {
      SplitWhitespaceInner(s[1..], cur + [s[0]]);
      assert SplitWhitespaceFrom(s, cur) == SplitWhitespaceFrom(s[1..], cur + [s[0]]);
    }
  }

  /** The token being read is a prefix of the first token produced. */
  lemma {:induction false} SplitWhitespaceFirst(s: string, cur: string)
    ensures var t := SplitWhitespaceFrom(s, cur)[0]; |cur| <= |t| && t[..|cur|] == cur
    ensures s != [] && IsSpace(s[0]) ==> SplitWhitespaceFrom(s, cur)[0] == cur
    ensures s != [] && !IsSpace(s[0]) ==>
              |SplitWhitespaceFrom(s, cur)[0]| > |cur| && SplitWhitespaceFrom(s, cur)[0][|cur|] == s[0]
    decreases |s|
  {
    if s != [] && !IsSpace(s[0]) {
      SplitWhitespaceFirst(s[1..], cur + [s[0]]);
      var t := SplitWhitespaceFrom(s, cur)[0];
      assert t[..|cur| + 1] == cur + [s[0]];
      assert t[..|cur|] == (t[..|cur| + 1])[..|cur|];
    }
  }

  /** Reading a word that holds no white space just extends the current token. */
  lemma {:induction false} SplitWhitespaceWord(w: string, rest: string, cur: string)
    requires forall i :: 0 <= i < |w| ==> !IsSpace(w[i])
    ensures SplitWhitespaceFrom(w + rest, cur) == SplitWhitespaceFrom(rest, cur + w)
    decreases |w|
  {
    if w == [] {
      assert w + rest == rest;
      assert cur + w == cur;
    } else {
      assert (w + rest)[1..] == w[1..] + rest;
      SplitWhitespaceWord(w[1..], rest, cur + [w[0]]);
      assert cur + [w[0]] + w[1..] == cur + w;
    }
  }

  /** Reading a word free of the separator just extends the current token. */
  lemma {:induction false} SplitOnWord(w: string, rest: string, sep: char, cur: string)
    requires sep !in w
    ensures SplitOnFrom(w + rest, sep, cur) == SplitOnFrom(rest, sep, cur + w)
    decreases |w|
  {
    if w == [] {
      assert w + rest == rest;
      assert cur + w == cur;
    } else {
      assert (w + rest)[1..] == w[1..] + rest;
      SplitOnWord(w[1..], rest, sep, cur + [w[0]]);
      assert cur + [w[0]] + w[1..] == cur + w;
    }
  }

  /** The token being read is a prefix of the first token a split on `sep` produces. */
  lemma {:induction false} SplitOnFirst(s: string, sep: char, cur: string)
    ensures var t := SplitOnFrom(s, sep, cur)[0]; |cur| <= |t| && t[..|cur|] == cur
    ensures s != [] && s[0] != sep ==>
              |SplitOnFrom(s, sep, cur)[0]| > |cur| && SplitOnFrom(s, sep, cur)[0][|cur|] == s[0]
    decreases |s|
  {
    if s != [] && s[0] != sep {
      SplitOnFirst(s[1..], sep, cur + [s[0]]);
      var t := SplitOnFrom(s, sep, cur)[0];
      assert t[..|cur| + 1] == cur + [s[0]];
      assert t[..|cur|] == (t[..|cur| + 1])[..|cur|];
    }
  }

  /** The parts glued together with nothing between them. */
  function Join(parts: seq<string>): (r: string)
    ensures parts != [] ==> r == parts[0] + Join(parts[1..])
  {
    if parts == [] then [] else parts[0] + Join(parts[1..])
  }

  /** The parts with one separator between neighbours. */
  function JoinWith(parts: seq<string>, sep: char): (r: string)
    ensures |parts| == 1 ==> r == parts[0]
  {
    if parts == [] then []
    else if |parts| == 1 then parts[0]
    else parts[0] + [sep] + JoinWith(parts[1..], sep)
  }

  /** Joining the tokens of a split on `sep` with `sep` gives back the text. */
  lemma {:induction false} SplitOnJoin(s: string, sep: char, cur: string)
    ensures JoinWith(SplitOnFrom(s, sep, cur), sep) == cur + s
    decreases |s|
  {
    if s == [] {
      assert cur + s == cur;
    } else if s[0] == sep {
      var rest := SplitOnFrom(s[1..], sep, []);
      SplitOnJoin(s[1..], sep, []);
      assert [cur] + rest != [] && ([cur] + rest)[1..] == rest;
      assert [] + s[1..] == s[1..];
      assert cur + [sep] + s[1..] == cur + s;
    } else {
      SplitOnJoin(s[1..], sep, cur + [s[0]]);
      assert cur + [s[0]] + s[1..] == cur + s;
    }
  }

  /** A string of separators only splits into empty tokens. */
  lemma {:induction false} SplitOnOnlySeparators(s: string, sep: char)
    ensures (forall i :: 0 <= i < |s| ==> s[i] == sep) ==>
              forall k :: 0 <= k < |SplitOnFrom(s, sep, [])| ==> SplitOnFrom(s, sep, [])[k] == []
    decreases |s|
  {
    if s != [] && forall i :: 0 <= i < |s| ==> s[i] == sep {
      assert forall i :: 0 <= i < |s[1..]| ==> s[1..][i] == s[i + 1];
      SplitOnOnlySeparators(s[1..], sep);
      var rest := SplitOnFrom(s[1..], sep, []);
      assert SplitOnFrom(s, sep, []) == [[]] + rest;
    }
  }
}

=== FILE: types.dfy ===
/** The game's data model: phases, players and the single round state (src/types.tsx). */
module Types {
  import opened Util

  datatype Option<+T> = None | Some(value: T) {
    /** The value, or `default` when absent (JavaScript's logical-or fallback for an object value). */
    function GetOr(default: T): T {
      match this
      case Some(v) => v
      case None => default
    }
  }

  /** JavaScript truthiness of an optional string: present and not the empty string. */
  predicate Present(o: Option<string>) {
    o.Some? && o.value != ""
  }

  /** Which screen the state drives. `Lobby` is in the type but no transition produces it:
      the lobby is the absence of a round state. */
  datatype Phase = Lobby | Reveal | Vote | Outcome | Ready | GameOver

  /** The two roles: liar and normal. */
  datatype Role = Liar | Normal

  datatype Player = Player(id: string, name: string, role: Role, voteForId: Option<string>)

  /** A `{ id, name }` pair as the lobby hands it to the engine. */
  datatype Entrant = Entrant(id: string, name: string)

  /** Display metadata of the secret; only the image URL is read anywhere. */
  datatype SecretMeta = SecretMeta(image: Option<string>)

  /** What the word provider returns: the secret text and optional metadata. */
  datatype Secret = Secret(text: string, meta: Option<SecretMeta>)

  /** The round state. The optional booleans `tied` and `liarFound` of the source are only ever
      read by truthiness, so an absent value is modelled as `false`. */
  datatype RoundState = RoundState(
    phase: Phase,
    roundNumber: int,
    category: string,
    secretWord: string,
    players: seq<Player>,
    liarIds: seq<string>,
    currentIndex: int,
    hasRevealedOnce: bool,
    eliminatedId: Option<string>,
    liarFound: bool,
    tied: bool,
    secretMeta: SecretMeta)

  function Ids(ps: seq<Player>): (r: seq<string>)
    ensures |r| == |ps|
    ensures forall i :: 0 <= i < |ps| ==> r[i] == ps[i].id
  {
    seq(|ps|, i requires 0 <= i < |ps| => ps[i].id)
  }

  function EntrantIds(es: seq<Entrant>): (r: seq<string>)
    ensures |r| == |es|
    ensures forall i :: 0 <= i < |es| ==> r[i] == es[i].id
  {
    seq(|es|, i requires 0 <= i < |es| => es[i].id)
  }

  /** The players without any entry for the id, in their original order. */
  function RemoveId(ps: seq<Player>, id: string): (r: seq<Player>)
    ensures forall p :: p in r <==> p in ps && p.id != id
    ensures IsSubsequence(r, ps)
    ensures forall p :: multiset(r)[p] == if p.id != id then multiset(ps)[p] else 0
  {
    var keep := IdIsNot(id);
    assert forall p :: keep(p) <==> p.id != id;
    Filter(ps, keep)
  }

  /** The test "has a different id". */
  function IdIsNot(id: string): Player -> bool {
    (p: Player) => p.id != id
  }

  /** The chosen entrants without any entry for the id, in their original order. */
  function RemoveEntrant(es: seq<Entrant>, id: string): (r: seq<Entrant>)
    ensures forall e :: e in r <==> e in es && e.id != id
    ensures IsSubsequence(r, es)
    ensures forall e :: multiset(r)[e] == if e.id != id then multiset(es)[e] else 0
    ensures (forall e :: e in es ==> e.id != id) ==> r == es
  {
    var keep := EntrantIdIsNot(id);
    assert forall e :: keep(e) <==> e.id != id;
    Filter(es, keep)
  }

  /** The test "has a different id" on lobby entrants. */
  function EntrantIdIsNot(id: string): Entrant -> bool {
    (e: Entrant) => e.id != id
  }
}

=== FILE: util.dfy ===
/** Small generic helpers shared by every module of the model. */
module Util {

  function Min(a: int, b: int): int { if a <= b then a else b }

  function Max(a: int, b: int): int { if a <= b then b else a }

  /** No element occurs twice. */
  ghost predicate Distinct<T>(s: seq<T>) {
    forall i, j :: 0 <= i < j < |s| ==> s[i] != s[j]
  }

  /** `r` can be obtained from `xs` by deleting elements: the survivors keep their order. */
  ghost predicate IsSubsequence<T>(r: seq<T>, xs: seq<T>)
    decreases |xs|
  {
    if r == [] then true
    else if xs == [] then false
    else if r[0] == xs[0] then IsSubsequence(r[1..], xs[1..])
    else IsSubsequence(r, xs[1..])
  }

  /** JavaScript's `Array.prototype.filter`: the elements that `keep` accepts, in their original order,
      each as often as it occurs in `xs`. */
  function Filter<T(!new)>(xs: seq<T>, keep: T -> bool): (r: seq<T>)
    ensures |r| <= |xs|
    ensures forall x :: x in r <==> x in xs && keep(x)
    ensures IsSubsequence(r, xs)
    ensures forall x :: multiset(r)[x] == if keep(x) then multiset(xs)[x] else 0
    ensures (forall i :: 0 <= i < |xs| ==> keep(xs[i])) ==> r == xs
    ensures Distinct(xs) ==> Distinct(r)
  {
    SelectFacts(xs, keep);
    Select(xs, keep)
  }

  /** The recursion behind `Filter`: the head if `keep` accepts it, then the filtered tail. */
  function Select<T>(xs: seq<T>, keep: T -> bool): seq<T> {
    if xs == [] then []
    else (if keep(xs[0]) then [xs[0]] else []) + Select(xs[1..], keep)
  }

  lemma {:induction false} SelectFacts<T(!new)>(xs: seq<T>, keep: T -> bool)
    ensures FilterFacts(xs, keep, Select(xs, keep))
  {
    if xs != [] {
      SelectFacts(xs[1..], keep);
      FilterStep(xs, keep, Select(xs[1..], keep));
    }
  }

  /** What `Filter` promises, gathered so that one step of its recursion can be proved on its own. */
  ghost predicate FilterFacts<T(!new)>(xs: seq<T>, keep: T -> bool, r: seq<T>) {
    && |r| <= |xs|
    && (forall x :: x in r <==> x in xs && keep(x))
    && IsSubsequence(r, xs)
    && (forall x :: multiset(r)[x] == if keep(x) then multiset(xs)[x] else 0)
    && ((forall i :: 0 <= i < |xs| ==> keep(xs[i])) ==> r == xs)
    && (Distinct(xs) ==> Distinct(r))
  }

  lemma FilterStep<T(!new)>(xs: seq<T>, keep: T -> bool, rest: seq<T>)
    requires xs != [] && FilterFacts(xs[1..], keep, rest)
    ensures FilterFacts(xs, keep, (if keep(xs[0]) then [xs[0]] else []) + rest)
  {
    FilterStepMembers(xs, keep, rest);
    FilterStepOrder(xs, keep, rest);
    FilterStepCount(xs, keep, rest);
    FilterStepAll(xs, keep, rest);
    FilterStepDistinct(xs, keep, rest);
  }

  lemma FilterStepMembers<T(!new)>(xs: seq<T>, keep: T -> bool, rest: seq<T>)
    requires xs != []
    requires forall x :: x in rest <==> x in xs[1..] && keep(x)
    ensures forall x :: x in (if keep(xs[0]) then [xs[0]] else []) + rest <==> x in xs && keep(x)
  {
    assert xs == [xs[0]] + xs[1..];
  }

  lemma FilterStepOrder<T>(xs: seq<T>, keep: T -> bool, rest: seq<T>)
    requires xs != []
    requires IsSubsequence(rest, xs[1..])
    requires forall x :: x in rest ==> keep(x)
    ensures IsSubsequence((if keep(xs[0]) then [xs[0]] else []) + rest, xs)
  {
    var r := (if keep(xs[0]) then [xs[0]] else []) + rest;
    if keep(xs[0]) {
      assert r[0] == xs[0] && r[1..] == rest;
    } else {
      assert r == rest;
      if rest != [] {
        assert rest[0] in rest;
      }
    }
  }

  lemma FilterStepCount<T>(xs: seq<T>, keep: T -> bool, rest: seq<T>)
    requires xs != []
    requires forall x :: multiset(rest)[x] == if keep(x) then multiset(xs[1..])[x] else 0
    ensures forall x :: multiset((if keep(xs[0]) then [xs[0]] else []) + rest)[x]
                        == if keep(x) then multiset(xs)[x] else 0
  {
    assert xs == [xs[0]] + xs[1..];
    assert multiset(xs) == multiset{xs[0]} + multiset(xs[1..]);
  }

  lemma FilterStepAll<T>(xs: seq<T>, keep: T -> bool, rest: seq<T>)
    requires xs != []
    requires (forall i :: 0 <= i < |xs[1..]| ==> keep(xs[1..][i])) ==> rest == xs[1..]
    ensures (forall i :: 0 <= i < |xs| ==> keep(xs[i])) ==> (if keep(xs[0]) then [xs[0]] else []) + rest == xs
  {
    if forall i :: 0 <= i < |xs| ==> keep(xs[i]) {
      assert keep(xs[0]);
      forall i | 0 <= i < |xs[1..]| ensures keep(xs[1..][i]) {
        assert xs[1..][i] == xs[i + 1];
      }
    }
  }

  lemma FilterStepDistinct<T>(xs: seq<T>, keep: T -> bool, rest: seq<T>)
    requires xs != []
    requires forall x :: x in rest ==> x in xs[1..]
    requires Distinct(xs[1..]) ==> Distinct(rest)
    ensures Distinct(xs) ==> Distinct((if keep(xs[0]) then [xs[0]] else []) + rest)
  {
    if Distinct(xs) {
      assert Distinct(xs[1..]);
      assert xs[0] !in xs[1..];
    }
  }

  /** Every element of a subsequence occurs in the sequence it was cut from. */
  lemma {:induction false} SubsequenceMembers<T>(r: seq<T>, xs: seq<T>)
    requires IsSubsequence(r, xs)
    ensures forall x :: x in r ==> x in xs
    decreases |xs|
  {
    if r != [] {
      if r[0] == xs[0] {
        SubsequenceMembers(r[1..], xs[1..]);
        assert forall x :: x in r ==> x == r[0] || x in r[1..];
      } else {
        SubsequenceMembers(r, xs[1..]);
      }
    }
  }

  /** Filtering a concatenation filters each part and keeps the parts in order. */
  lemma {:induction false} FilterAppend<T(!new)>(a: seq<T>, b: seq<T>, keep: T -> bool)
    ensures Filter(a + b, keep) == Filter(a, keep) + Filter(b, keep)
  {
    SelectAppend(a, b, keep);
  }

  /** Appending one rejected element to elements that are all accepted filters back to them. */
  lemma FilterDropsLast<T(!new)>(xs: seq<T>, y: T, keep: T -> bool)
    requires forall i :: 0 <= i < |xs| ==> keep(xs[i])
    requires !keep(y)
    ensures Filter(xs + [y], keep) == xs
  {
    FilterAppend(xs, [y], keep);
    assert Select([y], keep) == [] + Select([], keep);
    assert xs + [] == xs;
  }

  lemma {:induction false} SelectAppend<T>(a: seq<T>, b: seq<T>, keep: T -> bool)
    ensures Select(a + b, keep) == Select(a, keep) + Select(b, keep)
  {
    if a == [] {
      assert a + b == b;
    } else {
      var h := if keep(a[0]) then [a[0]] else [];
      calc {
        Select(a + b, keep);
        { assert (a + b)[0] == a[0] && (a + b)[1..] == a[1..] + b; }
        h + Select(a[1..] + b, keep);
        { SelectAppend(a[1..], b, keep); }
        h + (Select(a[1..], keep) + Select(b, keep));
        (h + Select(a[1..], keep)) + Select(b, keep);
      }
    }
  }

  /** Filtering out the one value `x` from a duplicate-free sequence shortens it by exactly one when `x` occurs. */
  lemma {:induction false} FilterOneCount<T(!new)>(xs: seq<T>, keep: T -> bool, x: T)
    requires Distinct(xs)
    requires forall y :: !keep(y) <==> y == x
    ensures |Select(xs, keep)| == |xs| - (if x in xs then 1 else 0)
  {
    if xs != [] {
      assert Distinct(xs[1..]);
      FilterOneCount(xs[1..], keep, x);
      if xs[0] == x {
        assert x !in xs[1..];
      } else {
        assert x in xs <==> x in xs[1..];
      }
    }
  }

  /** The sequence with every occurrence of `x` dropped. */
  function Without<T(==,!new)>(xs: seq<T>, x: T): (r: seq<T>)
    ensures forall y :: y in r <==> y in xs && y != x
    ensures x !in xs ==> r == xs
    ensures Distinct(xs) ==> Distinct(r) && |r| == |xs| - (if x in xs then 1 else 0)
  {
    WithoutCount(xs, NotEqual(x), x);
    Filter(xs, NotEqual(x))
  }

  /** The test "differs from `x`". */
  function NotEqual<T(==)>(x: T): T -> bool {
    (y: T) => y != x
  }

  lemma WithoutCount<T(!new)>(xs: seq<T>, keep: T -> bool, x: T)
    requires forall y :: !keep(y) <==> y == x
    ensures Distinct(xs) ==> |Filter(xs, keep)| == |xs| - (if x in xs then 1 else 0)
  {
    if Distinct(xs) {
      FilterOneCount(xs, keep, x);
    }
  }

  /** A duplicate-free sequence all of whose elements equal `x` is just `[x]`. */
  lemma DistinctConstant<T>(s: seq<T>, x: T)
    requires Distinct(s) && |s| > 0
    requires forall n :: 0 <= n < |s| ==> s[n] == x
    ensures s == [x]
  {
    if |s| >= 2 {
      DistinctHead(s, x);
      assert false;
    }
  }

  lemma DistinctHead<T>(s: seq<T>, x: T)
    requires Distinct(s) && |s| >= 2
    ensures s[0] != x || s[1] != x
  {
  }
}
